=== FILE: README.md ===
# slackline bookkeeping, modelled in Dafny

slackline bridges channels between chat workspaces. Every message posted in
a bridged channel is copied to its paired channel, and direct messages can
be tunnelled to a member on the far side. Between the webhook and the chat
API sits a layer of plain bookkeeping: keyed maps and string rewrites. This
project models that layer as pure functions over immutable maps, and proves
what each piece promises.

- **Correlation store** (`messages.dfy`, module `Messages`). The store maps
  a message timestamp to a six-field record that points at the mirrored
  copy. One entry point does a lookup, a delete or an insert-once. An
  insert is refused when the key is taken or any field is falsy. The
  module also models the row literal the relational back end builds.
- **Bridge topology** (`topology.dfy`, module `Topology`). `cache.line`
  reads the environment variable `LINE_<ws>_<ch>`, with hyphens escaped,
  and splits its value on `#`. Only successful answers are memoised.
- **Identity cache** (`identity.dfy`, module `Identity`):
  - the memoise-once helper `cached` and `cache.user`;
  - the reverse index `workspace#channel#name → id`;
  - `cache.uid`, which answers with either the exact id or the sorted
    candidate names;
  - `cache.unuser`.
- **Mention rewriter** (`mentions.dfy`, module `Mentions`).
  `process_users` warns about undelimited `@`. It rewrites native mentions
  `<@ID>` into portable tags `` `@Name` `` on the way out. On the way in it
  rewrites the tags back into native mentions, resolved on the receiving
  side. Each regular-expression replace is modelled as a left-to-right
  scanner.
- **DM sessions** (`sessions.dfy`, module `Sessions`):
  - `cache.dm` and `cache.dmers`;
  - the writes of `select_user`;
  - the `dm` command's replies and the session clears on its error paths;
  - `handle_leave`.
- **Event router** (`router.dfy`, module `Router`):
  - duplicate suppression and dispatch in `handle_connection`;
  - the classification at the top of `handle_event`;
  - the two-record write after a relayed post;
  - the two-record delete on `message_deleted`.

`values.dfy` holds the JavaScript value conventions: `Option`, and `Answer`
for the null/undefined/value outcomes of a memoised lookup. `text.dfy`
holds the string helpers: split and join on a character, the text after
the last `#`, JavaScript's default sort order on UTF-16 code units, and
sorted insertion.

Network lookups become parameters. `fetched` is the outcome of the remote
directory call, consulted only where the source would make it. The process
environment is an immutable `map<string, string>`. Posting, warnings and
channel cleaning are I/O and are not modelled.

Some of what the code does differs from what a reader might expect. The model follows the code:

- A `dm` command that finds no channel at all returns its error without
  clearing the caller's session (index.js:508-510). Every later error reply
  clears it; the throw in the membership check does not (index.js:392, 525).
- `cache.unuser` looks the user up with no channel or workspace
  (index.js:97). The lookup is in updating mode, so it also registers the
  name under the scope `undefined#undefined#` before clearing the entry
  for the channel left.
- `handle_leave` unpairs every session that targets the leaver on any
  channel leave, not only on the channel they shared. When the left
  channel is not bridged, it unpairs one such session (the first in the
  table's key order) and then throws (index.js:790-798).
- A file share is warned about and then relayed like any message. It skips
  the bot check, because that check sits on an `else if` branch
  (index.js:598-609).

## Model

| member | source | states |
|---|---|---|
| Messages.Store | messages.js:24-35 | A lookup returns the stored record or `undefined` and leaves the table alone. A delete removes exactly the key and answers `true`. An insert succeeds iff the key is free and all six fields are truthy; on success exactly that record is stored, and on failure it answers `false` and nothing changes. |
| Messages.PutThenGet | messages.js:24-34 | After a successful insert, a lookup of the key yields exactly the inserted record. |
| Messages.PutTwice | messages.js:29-31 | Once a key holds a record, any further insert on it fails, changes nothing, and the first record stays. |
| Messages.DeleteThenGet | messages.js:25-28 | After a delete, a lookup of the key yields `undefined`, and lookups of other keys answer as before. |
| Messages.DeleteThenPut | messages.js:27-34 | After a delete, an insert of any complete record on the same key succeeds and stores it. |
| Messages.SerializeRoundTrip | messages.js:84-90 | The row literal is the fixed column list, then `VALUES (`, then the seven quoted values in column order; it reads back to exactly those values when none holds a quote. |
| Messages.QuotedListSplice | messages.js:84-90 | Because quotes inside a value are not escaped, one value holding `', '` quotes to the same text as the two values either side of it, wherever it sits in the list. |
| Messages.SerializeNotInjective | messages.js:84-90 | Values are quoted without escaping, so a timestamp containing `', '` yields the same literal as a different timestamp with a different record. |
| Topology.EscapedAppend | index.js:274-276 | Escaping acts character by character: it distributes over concatenation. |
| Topology.EscapedPlain | index.js:274-276 | A name without hyphens is unchanged by escaping (and no escaped name contains a hyphen). |
| Topology.LineVarShared | index.js:31 | The variable name `LINE_`+ws+`_`+ch does not identify the pair: for any ws, x and ch, the pairs (ws+`_`+x, ch) and (ws, x+`_`+ch) read the same variable. |
| Topology.Line | index.js:28-50 | A memoised pairing is returned as is. A missing or empty variable gives `null`, not memoised. A fresh answer comes from a variable holding exactly two `#`-free pieces joined by `#`, and is memoised under `ws#ch`. |
| Topology.LineAccepts | index.js:39-47 | Conversely, a variable of the form `a#b` with `#`-free pieces yields the pairing (a, b). |
| Topology.LineStable | index.js:30-49 | Once a pairing is answered, every later call returns the same pairing without reading the environment or changing the memo. |
| Identity.Cached | index.js:210-222 | A truthy memo entry is returned without a lookup. A failed lookup gives `null`. With `update` the fetched value is stored and returned; without it the memo is never written and an uncached key never yields a value. |
| Identity.CachedOnce | index.js:210-222 | After a truthy value is memoised, every later call, in either mode and whatever the lookup would say, returns that value and leaves the memo unchanged. |
| Identity.User | index.js:84-95 | The profile comes through the memo. A fresh fetch in updating mode adds exactly that profile and leaves the others alone. Only in updating mode, and only when a profile is had, is the name registered in the reverse index as `ws#ch#name → id`; otherwise the directory is unchanged. |
| Identity.UserRegisters | index.js:89-90 | After registering a user, their name resolves to their id in that scope. |
| Identity.Uid | index.js:72-83 | A truthy entry for `ws#ch#name` gives its id. Otherwise the answer lists, sorted by UTF-16 code units as `.sort()` compares, the text after the last `#` of every key with prefix `ws#ch#` and a truthy value, with repeats: it is a permutation of that collection. |
| Text.SurrogatesSortEarly | index.js:82 | The default sort compares UTF-16 code units, so U+10000 (stored from a surrogate) sorts before U+FFFF, although it is the larger character. |
| Identity.Unuser | index.js:96-98 | Fails, writing nothing, iff no profile can be had. Otherwise it memoises the profile, falsifies the entry for the user's name in the given scope, and leaves every other index entry as it was, except the `undefined#undefined#name` registration its own lookup makes. |
| Identity.UnuserUnlists | index.js:72-83 | After `unuser`, the cleared entry no longer contributes a candidate name in that scope. |
| Mentions.NeedsDelimiterWarning | index.js:304 | Warns iff the message starts with `@` or has an `@` right after a character other than `<` and a backtick. |
| Mentions.Outbound | index.js:310-319 | Every collected name is the name of a memoised user: the lookup only reads the memo. |
| Mentions.OutboundMention | index.js:310-318 | A native mention `<@ID>` of a memoised user becomes `` `@Name` `` and the name is collected; a mention of anyone else is kept verbatim. The scan then carries on right after the mention. |
| Mentions.MentionTokenMatches | index.js:310 | The scanner finds a mention at a position exactly where `<@([A-Z0-9]+)>` matches there: `<@`, a non-empty run of id characters, then `>`. |
| Mentions.OutboundSkip | index.js:310-318 | Where `<@([A-Z0-9]+)>` does not match, as at the `<` of a link or a channel reference, the character is kept and the scan moves on by one. |
| Mentions.OutboundPlain | index.js:310 | Text without `<` holds no mention: it passes the outbound rewrite unchanged, and the scan carries on behind it. |
| Mentions.OutboundUnknown | index.js:310-319 | With nothing memoised, the outbound rewrite leaves the text unchanged and collects no names. |
| Mentions.Inbound | index.js:321-338 | Every name collected is one that does not resolve, and a direct-message target collects none. |
| Mentions.InboundTag | index.js:321-338 | A tag `` `@Name` `` whose name resolves becomes `<@id>` for the resolved id. One that does not resolve is kept verbatim, and its name is collected for a channel target only. The scan then carries on right after the tag. |
| Mentions.InboundSkip | index.js:322-329 | Where `` `@([^`]*)` `` does not match, as at the backtick of inline code, the character is kept and the scan moves on by one. |
| Mentions.InboundPlain | index.js:322 | Text without backticks holds no tag: it passes the inbound rewrite unchanged, and the scan carries on behind it. |
| Mentions.RoundTrip | index.js:310-338 | For a backtick-free message and a receiving index that maps every memoised name back to its user, the outbound rewrite followed by the inbound one gives back the original text, with no unresolved names. |
| Mentions.ProcessUsers | index.js:303-351 | The warning flag matches the delimiter rule. The text is the outbound then inbound rewrite. The reported names are exactly the unresolved ones not resolved from a native mention in the same message, and none for a direct message. |
| Sessions.Dm | index.js:108-115 | The user's session is returned and is in the table afterwards. A missing one is created blank; every existing session is unchanged. |
| Sessions.Dmers | index.js:116-122 | Lists exactly the users whose session targets the given user, each once. |
| Sessions.Clear | index.js:521 | Unpairing creates the session if absent, sets its target to `undefined`, and changes no other session. |
| Sessions.SelectUser | index.js:396-402 | The session records the remote workspace, the local channel and the target. The slash command is overwritten only when a non-empty one is given. Other sessions are untouched. |
| Sessions.SelectUserRetargets | index.js:396-402 | After selecting, the user targets the new user and nobody else; who the other users target is unchanged. |
| Sessions.IsMember | index.js:390-394 | The check throws iff the caller's profile is not memoised (the lookup is not in updating mode). Otherwise it passes iff the profile's name has a truthy exact entry in the channel's reverse index. |
| Sessions.RegisteredIsMember | index.js:390-394 | A user whose name `cache.user` just registered in updating mode (index.js:89-90) passes the membership check in that scope. |
| Sessions.UnuserNotMember | index.js:390-394 | After `cache.unuser` (index.js:96-98), the user fails the membership check for the scope they left, without a throw. |
| Sessions.SplitDmArgs | index.js:499-504 | With a ` - ` present, the arguments split at its last occurrence (the name is exactly as long as the text before it) into name and channel, and the inferred channel becomes the fallback. Without one, the name is all of it and the channel is the inferred one. |
| Sessions.DmCommand | index.js:498-555 | The command fails with no channel iff the text after the last ` - ` is empty, or there is no ` - ` and no channel was inferred; it then touches nothing and does not try the fallback. Otherwise each reply is tied to its condition by an iff, checked in the source's order. The channel may be unbridged after the fallback. A caller whose profile is not memoised makes the membership check throw, and the sessions stay unchanged. The caller may not be in the channel, or the name may be empty or unknown. Each of these errors unpairs the caller. The command succeeds iff every check passes, and then pairs the caller with the exact id the name resolves to in the paired scope. |
| Sessions.DmCommandPairing | index.js:519-554 | Every refused `dm` apart from the no-channel one leaves the caller unpaired; a successful one leaves them paired with the selected user. |
| Sessions.ClearOwn | index.js:781-784 | The leaver's own session is unpaired exactly when it was opened from the channel left; other sessions are untouched. |
| Sessions.UnpairDmers | index.js:790-798 | Every session targeting the leaver is unpaired and no other changes. When the pairing lookup fails, exactly one such session is unpaired before the throw. |
| Sessions.HandleLeave | index.js:776-802 | Composes `unuser`, the own-session clear and the unpairing loop. Unless it throws, no session targets the leaver afterwards. |
| Router.HandleConnection | index.js:449-483 | A raw body seen before is acknowledged with nothing else done. Otherwise it is remembered before the empty check, and dispatched: no `type` goes to the command handler, `event_callback` with an event to the event handler, `url_verification` echoes the challenge, an `event_callback` without an event and any other type get their error texts. |
| Router.AtMostOnce | index.js:450-455 | Across any sequence of deliveries, every delivery of a raw body after the first is only acknowledged. |
| Router.Classify | index.js:583-613 | A file share is warned about and relayed iff it is not a join, leave or reaction event, even when a bot sent it. Any other event is relayed iff it is a non-bot message whose subtype is not a delete or an edit. A bot message that is not a file share is never relayed, deleted or edited. A delete is handled iff it is a non-bot message with subtype `message_deleted`, and an edit likewise with `message_changed`. A join, a leave and a reaction go to their own branches iff the event has that type. Any other non-message event is dropped unless it is a file share, and so is a bot's message. |
| Router.ClassifyBotOnlyForMessages | index.js:583-607 | The bot flag changes the handling only of messages that are not file shares: such a message from a bot is dropped, and from anyone else it is handled. |
| Router.RecordPost | index.js:752-767 | The forward record goes in iff its timestamp is free and its fields are set. The backward record goes in iff its key is still free and its fields are set. The key is the copy's timestamp, or `"undefined"` when the post failed and the acknowledgement has none. For each of the four outcomes the new table is stated exactly. Equal keys make the second insert fail, and a failed post never stores the forward record. |
| Router.FailedPostStray | index.js:752-767 | A failed post stores only its backward record, under the key `"undefined"` when that key is free. Every later failed post is then refused both records. |
| Router.PostLinksBothWays | index.js:752-767 | Both records go in only for a post that was acknowledged with a timestamp. The backward record is found under the forward record's destination timestamp and points back at the original; their in and out coordinates are swapped. |
| Router.RecordDelete | index.js:612-623 | When the deleted timestamp has a record, it and the record under its destination timestamp are removed; otherwise nothing changes. |
| Router.DeleteUndoesPost | index.js:612-623 | After both records of a post were written, deleting either the original or the copy restores the table exactly. |

## Left out

- Network calls (`call`, `collect_call`), posting, `warning`, `clean_channel` and the HTTP server are I/O. Directory lookups become `fetched` parameters; the rest is not modelled.
- `database` and `provision` in messages.js are Postgres access. Only the in-memory store and `serialize` are modelled.
- `cache.token` and `cache.bootstrap` parse credentials, and the network branch of `cache.im` enumerates remote conversations. `cache.channel` and `cache.workspace` are single memoised lookups through `cached` (index.js:69-71, 102-104); `Identity.Cached` models that helper. `cache.team` is a plain map read (index.js:99-101). `HandleLeave` takes the workspace and channel names these would give as parameters.
- `process_args` rewrites channel references in the arguments through `cache.channel`; the model takes the rewritten arguments. The `manual` command reads a file and `help` returns fixed text.
- The `list` command shares the `dm` command's channel checks, without touching sessions, and then lists the paired scope's candidate names through `cache.uid` (index.js:384-387, 527-529). It writes nothing but the `cache.line` memo, and its answer is the `Identity.Uid` list as text, so it is not modelled as a command of its own.
- JSON and querystring parsing: payloads are an already-parsed datatype.
- The Promise concurrency of `replace` is modelled as a sequential scan.
- Each handler (`HandleLeave`, `DmCommand`, `RecordPost` with `RecordDelete`) is modelled as one step that runs to completion with no other handler in between. The source does not enforce this: `handle_event` is not awaited (index.js:475), and its handlers await inside. Examples are `cache.unuser` (index.js:779), `clean_channel` after each unpairing (index.js:784, 798) and the two `messages` writes (index.js:752-767). Another event or command can run at those points, for instance re-pairing a session with the leaver while `handle_leave` is in its loop; what holds afterwards is then not promised.
- Sessions.SelectUser: the profile lookup `select_user` makes after its writes is left out. That lookup passes a line object as the channel, so it would register the name under `ws#[object Object]#name`.
- Messages.Record: a missing field is the empty string, whereas `serialize` would print it as `undefined`.
- Keys that collide with JavaScript object prototype properties (`constructor`, `__proto__`) are treated like any other key.
- Text is `seq<char>` of Unicode scalar values. For sorting, each string is mapped to its UTF-16 code units. This differs from character order above U+FFFF (`Text.SurrogatesSortEarly`).
- Sessions.SplitDmArgs: the `.` of `(.*) - (.*)` does not match line terminators in the source. The model splits at the last ` - ` regardless of newlines.
- Identity.Uid: likewise, `/.*#/` cannot cross a line terminator, but the model takes the text after the last `#` regardless.
- The remaining branches of `handle_event` also write to the caches:
  - a join registers the user in the reverse index (index.js:773);
  - an edit registers the editor (index.js:634);
  - a relay registers the sender (index.js:727);
  - a direct-message thread reply re-pairs the session through `select_user` (index.js:703).
  These writes are modelled only as `Identity.User` and `Sessions.SelectUser`, not composed into whole handlers; the handlers' posting and warnings are I/O. Only the classification and the correlation writes of `handle_event` are modelled as such.
- Sessions.UnpairDmers: the sessions table is a map, which has no key order. When the pairing lookup fails, the source unpairs the first session in the insertion order of its keys (`for…in` at index.js:118), before the throw. The model states only that exactly one session targeting the leaver is unpaired, and leaves open which.
- The `quiet` flag of `cache.line` only silences a log line.

=== FILE: identity.dfy ===
/** The identity cache of index.js: memoise-once directory lookups, user
    profiles, and the reverse index from `workspace#channel#name` to a
    user id that mention resolution and membership checks read. */
module Identity {
  import opened Values
  import opened Text

  /** The two profile attributes the bridge reads. */
  datatype Profile = Profile(realName: string, image512: string)

  /** What `cache.user` hands back. */
  datatype UserInfo = UserInfo(name: string, avatar: string)

  function Info(p: Profile): UserInfo {
    UserInfo(p.realName, p.image512)
  }

  /** `cached`: a memo keyed by id. A memo entry counts only when it is
      truthy; otherwise the remote lookup is consulted (its outcome is the
      `fetched` parameter: `None` when the call failed or was not ok), and
      its value is stored only when `update` holds. */
  function Cached<V>(memo: map<string, V>, key: string, fetched: Option<V>, update: bool, truthy: V -> bool)
    : (r: (map<string, V>, Answer<V>))
    ensures key in memo && truthy(memo[key]) ==> r == (memo, Value(memo[key]))
    ensures !update ==> r.0 == memo
    ensures !update && key !in memo ==> !r.1.Value?
    ensures !(key in memo && truthy(memo[key])) && fetched.None? ==> r == (memo, Null)
    ensures !(key in memo && truthy(memo[key])) && fetched.Some? && update ==>
      r == (memo[key := fetched.value], Value(fetched.value))
  {
    if key in memo && truthy(memo[key]) then (memo, Value(memo[key]))
    else if fetched.None? then (memo, Null)
    else
      var memo' := if update then memo[key := fetched.value] else memo;
      (memo', if key in memo' then Value(memo'[key]) else Undefined)
  }

  /** Memoise once: after a stored truthy value, every later call returns
      that value and leaves the memo alone, whatever the lookup would now
      say and whichever mode it is called in. */
  lemma CachedOnce<V>(memo: map<string, V>, key: string, fetched: Option<V>, truthy: V -> bool,
                      later: Option<V>, update: bool)
    requires Cached(memo, key, fetched, true, truthy).1.Value?
    requires truthy(Cached(memo, key, fetched, true, truthy).1.value)
    ensures var (m, first) := Cached(memo, key, fetched, true, truthy);
      Cached(m, key, later, update, truthy) == (m, first)
  {
  }

  // ---------------------------------------------------------------------------
  // profiles and the reverse index

  /** The profile memo and the reverse name index. An index entry cleared
      by `unuser` holds the empty string: every reader only asks whether
      the entry is truthy. */
  datatype Directory = Directory(users: map<string, Profile>, uids: map<string, string>)

  function IndexKey(workspace: string, channel: string, name: string): string {
    workspace + "#" + channel + "#" + name
  }

  function Scope(workspace: string, channel: string): string {
    workspace + "#" + channel + "#"
  }

  /** A truthy index entry under `key`. */
  predicate Hit(uids: map<string, string>, key: string) {
    key in uids && uids[key] != ""
  }

  /** `cache.user`: the profile through `Cached` (a profile is an object, so
      any memoised one is truthy); with `update`, the name is also
      registered in the reverse index under the given channel. */
  function User(dir: Directory, id: string, channel: string, workspace: string, update: bool, fetched: Option<Profile>)
    : (r: (Directory, Answer<UserInfo>))
    ensures !update ==> r.0 == dir
    ensures !r.1.Value? ==> r.0 == dir
    ensures id in dir.users ==> r.1 == Value(Info(dir.users[id])) && r.0.users == dir.users
    ensures !update && id !in dir.users ==> !r.1.Value?
    ensures id !in dir.users && fetched.None? ==> r == (dir, Null)
    ensures update && r.1.Value? ==>
      && id in r.0.users && r.1.value == Info(r.0.users[id])
      && r.0.uids == dir.uids[IndexKey(workspace, channel, r.1.value.name) := id]
    ensures update && id !in dir.users && fetched.Some? ==>
      r.0.users == dir.users[id := fetched.value] && r.1 == Value(Info(fetched.value))
  {
    var (users, profile) := Cached(dir.users, id, fetched, update, (p: Profile) => true);
    match profile
    case Value(p) =>
      var uids := if update then dir.uids[IndexKey(workspace, channel, p.realName) := id] else dir.uids;
      (Directory(users, uids), Value(Info(p)))
    case Null => (dir, Null)
    case Undefined => (dir, Undefined)
  }

  /** Registering a user makes the name resolve to that id in that scope. */
  lemma UserRegisters(dir: Directory, id: string, channel: string, workspace: string, fetched: Option<Profile>)
    requires id != ""
    requires User(dir, id, channel, workspace, true, fetched).1.Value?
    ensures var (d, who) := User(dir, id, channel, workspace, true, fetched);
      Hit(d.uids, IndexKey(workspace, channel, who.value.name))
      && d.uids[IndexKey(workspace, channel, who.value.name)] == id
  {
  }

  // ---------------------------------------------------------------------------
  // name lookup

  /** `cache.uid`: the exact id, or the sorted names known in the scope. */
  datatype Lookup = Exact(id: string) | Candidates(names: seq<string>)

  /** An index key that contributes a candidate name for `scope`. */
  predicate Listed(uids: map<string, string>, scope: string, key: string) {
    Hit(uids, key) && StartsWith(key, scope)
  }

  function Contribution(uids: map<string, string>, scope: string, key: string): multiset<string> {
    if Listed(uids, scope, key) then multiset{AfterLast(key, '#')} else multiset{}
  }

  /** The candidate names contributed by the keys `keys`, with repeats. */
  ghost function CandidateNames(uids: map<string, string>, scope: string, keys: set<string>): multiset<string>
  {
    if keys == {} then multiset{}
    else
      var k :| k in keys;
      CandidateNames(uids, scope, keys - {k}) + Contribution(uids, scope, k)
  }

  /** The fold does not depend on the order keys are taken in. */
  lemma CandidateNamesRemove(uids: map<string, string>, scope: string, keys: set<string>, k: string)
    requires k in keys
    ensures CandidateNames(uids, scope, keys) == CandidateNames(uids, scope, keys - {k}) + Contribution(uids, scope, k)
    decreases keys
  {
    var j :| j in keys && CandidateNames(uids, scope, keys)
      == CandidateNames(uids, scope, keys - {j}) + Contribution(uids, scope, j);
    if j != k {
      CandidateNamesRemove(uids, scope, keys - {j}, k);
      CandidateNamesRemove(uids, scope, keys - {k}, j);
      assert keys - {j} - {k} == keys - {k} - {j};
    }
  }

  /** A name is a candidate exactly when some listed key ends in it. */
  lemma CandidateNamesMember(uids: map<string, string>, scope: string, keys: set<string>, x: string)
    ensures x in CandidateNames(uids, scope, keys) <==>
      exists k :: k in keys && Listed(uids, scope, k) && AfterLast(k, '#') == x
    decreases keys
  {
    if keys != {} {
      var k :| k in keys;
      CandidateNamesRemove(uids, scope, keys, k);
      CandidateNamesMember(uids, scope, keys - {k}, x);
      if x in CandidateNames(uids, scope, keys) && x !in CandidateNames(uids, scope, keys - {k}) {
        assert Listed(uids, scope, k) && AfterLast(k, '#') == x;
      }
    }
  }

  /** `cache.uid`: a truthy entry for exactly `workspace#channel#name` gives
      the id; otherwise every truthy entry in the scope `workspace#channel#`
      contributes the text after its last `#`, and those names come back
      sorted. */
  method Uid(uids: map<string, string>, name: string, channel: string, workspace: string) returns (r: Lookup)
    ensures Hit(uids, IndexKey(workspace, channel, name)) ==> r == Exact(uids[IndexKey(workspace, channel, name)])
    ensures !Hit(uids, IndexKey(workspace, channel, name)) ==> r.Candidates?
    ensures r.Candidates? ==> Sorted(r.names)
    ensures r.Candidates? ==> multiset(r.names) == CandidateNames(uids, Scope(workspace, channel), uids.Keys)
    ensures r.Candidates? ==> forall x :: x in r.names <==>
      exists k :: k in uids && Listed(uids, Scope(workspace, channel), k) && AfterLast(k, '#') == x
  {
    var key := IndexKey(workspace, channel, name);
    if Hit(uids, key) {
      return Exact(uids[key]);
    }
    var scope := Scope(workspace, channel);
    var rest := uids.Keys;
    var names: seq<string> := [];
    while rest != {}
      invariant rest <= uids.Keys
      invariant Sorted(names)
      invariant multiset(names) + CandidateNames(uids, scope, rest) == CandidateNames(uids, scope, uids.Keys)
      decreases rest
    {
      var k :| k in rest;
      CandidateNamesRemove(uids, scope, rest, k);
      if Listed(uids, scope, k) {
        names := Insert(AfterLast(k, '#'), names);
      }
      rest := rest - {k};
    }
    r := Candidates(names);
    forall x
      ensures x in r.names <==> exists k :: k in uids && Listed(uids, scope, k) && AfterLast(k, '#') == x
    {
      CandidateNamesMember(uids, scope, uids.Keys, x);
      assert x in r.names <==> x in multiset(names);
    }
  }

  // ---------------------------------------------------------------------------
  // forgetting a user

  /** The profile `cache.user(id)` would settle on: the memoised one, or
      else the fetched one. */
  function KnownProfile(dir: Directory, id: string, fetched: Option<Profile>): Option<Profile> {
    if id in dir.users then Some(dir.users[id]) else fetched
  }

  /** `cache.unuser`: the user's name is fetched through `cache.user(id)`,
      which the source calls without channel or workspace and in its
      default updating mode, so it memoises the profile and registers the
      name under the scope `undefined#undefined#`; then the entry for the
      given scope is cleared. When no profile can be had, reading its name
      throws: `None`, and nothing has been written. */
  function Unuser(dir: Directory, id: string, channel: string, workspace: string, fetched: Option<Profile>)
    : (r: Option<Directory>)
    ensures r.None? <==> KnownProfile(dir, id, fetched).None?
    ensures r.Some? ==>
      var name := KnownProfile(dir, id, fetched).value.realName;
      && IndexKey(workspace, channel, name) in r.value.uids
      && !Hit(r.value.uids, IndexKey(workspace, channel, name))
      && (forall k :: k != IndexKey(workspace, channel, name) && k != IndexKey("undefined", "undefined", name) ==>
            (k in r.value.uids <==> k in dir.uids) && (k in dir.uids ==> r.value.uids[k] == dir.uids[k]))
      && r.value.users == dir.users[id := KnownProfile(dir, id, fetched).value]
  {
    var (d, who) := User(dir, id, "undefined", "undefined", true, fetched);
    if !who.Value? then None
    else Some(d.(uids := d.uids[IndexKey(workspace, channel, who.value.name) := ""]))
  }

  /** After a user is forgotten in a scope, the scope's name lookup no
      longer offers that user's name through that user's entry. */
  lemma UnuserUnlists(dir: Directory, id: string, channel: string, workspace: string, fetched: Option<Profile>)
    requires Unuser(dir, id, channel, workspace, fetched).Some?
    ensures var name := KnownProfile(dir, id, fetched).value.realName;
      !Listed(Unuser(dir, id, channel, workspace, fetched).value.uids, Scope(workspace, channel),
              IndexKey(workspace, channel, name))
  {
  }
}

=== FILE: mentions.dfy ===
/** The mention rewriter of index.js (`process_users`): native mentions
    `<@ID>` of users whose profile is memoised become portable tags
    `` `@Name` ``, then portable tags that resolve on the receiving side
    become native mentions there. Each rewrite is a left-to-right scan that
    replaces non-overlapping matches, as a global regular-expression
    replace does. */
module Mentions {
  import opened Values
  import opened Text
  import opened Identity

  /** A match at the head of the text: the captured group and the length of
      the whole match. */
  datatype Token = Token(body: string, len: nat)

  /** The text of a scan and the names it collected along the way. */
  datatype Pass = Pass(text: string, names: seq<string>)

  function Mention(id: string): string {
    "<@" + id + ">"
  }

  function Tag(name: string): string {
    "`@" + name + "`"
  }

  predicate IsIdChar(c: char) {
    ('A' <= c <= 'Z') || ('0' <= c <= '9')
  }

  /** Length of the longest prefix of `s` made of `[A-Z0-9]`. */
  function IdRun(s: string): (n: nat)
    ensures n <= |s|
    ensures forall i :: 0 <= i < n ==> IsIdChar(s[i])
    ensures n < |s| ==> !IsIdChar(s[n])
  {
    if |s| == 0 || !IsIdChar(s[0]) then 0 else 1 + IdRun(s[1..])
  }

  /** `s` starts with a match of `<@([A-Z0-9]+)>`, stated directly:
      `<@`, then id characters up to a `>` at some position `j > 2`. */
  predicate MentionAt(s: string) {
    && |s| >= 4 && s[0] == '<' && s[1] == '@'
    && exists j :: 3 <= j < |s| && s[j] == '>' && forall i :: 2 <= i < j ==> IsIdChar(s[i])
  }

  /** `s` starts with a match of `` `@([^`]*)` ``. */
  predicate TagAt(s: string) {
    |s| >= 2 && s[0] == '`' && s[1] == '@' && '`' in s[2..]
  }

  /** A match of `<@([A-Z0-9]+)>` at the head of `s`. */
  function UserTokenAt(s: string): (r: Option<Token>)
    ensures r.Some? ==> 4 <= r.value.len <= |s| && s[..r.value.len] == Mention(r.value.body)
    ensures r.Some? ==> |r.value.body| > 0 && forall i :: 0 <= i < |r.value.body| ==> IsIdChar(r.value.body[i])
  {
    if |s| < 2 || s[0] != '<' || s[1] != '@' then None
    else
      var n := IdRun(s[2..]);
      if n == 0 || 2 + n >= |s| || s[2 + n] != '>' then None
      else Some(Token(s[2..2 + n], n + 3))
  }

  /** A match of `` `@([^`]*)` `` at the head of `s`. */
  function NameTokenAt(s: string): (r: Option<Token>)
    ensures r.Some? <==> |s| >= 2 && s[0] == '`' && s[1] == '@' && '`' in s[2..]
    ensures r.Some? ==> 3 <= r.value.len <= |s| && s[..r.value.len] == Tag(r.value.body)
    ensures r.Some? ==> '`' !in r.value.body
  {
    if |s| < 2 || s[0] != '`' || s[1] != '@' || '`' !in s[2..] then None
    else
      var j := IndexOf(s[2..], '`');
      Some(Token(s[2..2 + j], j + 3))
  }

  /** A tag around a backtick-free name is matched as exactly that name. */
  lemma NameTokenOfTag(name: string, rest: string)
    requires '`' !in name
    ensures NameTokenAt(Tag(name) + rest) == Some(Token(name, |name| + 3))
  {
    var s := Tag(name) + rest;
    assert s[0] == '`' && s[1] == '@';
    assert s[2..] == name + ['`'] + rest;
    assert s[2..][|name|] == '`';
    IndexOfAfter(name, '`', rest);
    assert s[2..2 + |name|] == name;
  }

  // ---------------------------------------------------------------------------
  // outbound: native mentions to portable tags

  /** The display names of the memoised profiles. */
  function RosterNames(users: map<string, Profile>): set<string> {
    set id | id in users :: users[id].realName
  }

  /** Every `<@ID>` whose profile is memoised becomes `` `@Name` `` and its
      name is collected; the rest of the text, unresolved mentions
      included, is kept verbatim. The lookup is the quiet mode of
      `cache.user`, which answers only from the memo. */
  function Outbound(s: string, users: map<string, Profile>): (r: Pass)
    ensures forall i :: 0 <= i < |r.names| ==> r.names[i] in RosterNames(users)
    decreases |s|
  {
    if |s| == 0 then Pass("", [])
    else
      match UserTokenAt(s)
      case Some(t) =>
        var rest := Outbound(s[t.len..], users);
        if t.body in users then
          Pass(Tag(users[t.body].realName) + rest.text, [users[t.body].realName] + rest.names)
        else Pass(s[..t.len] + rest.text, rest.names)
      case None =>
        var rest := Outbound(s[1..], users);
        Pass([s[0]] + rest.text, rest.names)
  }

  /** With no memoised profiles, nothing is rewritten. */
  lemma {:induction false} OutboundUnknown(s: string)
    ensures Outbound(s, map[]) == Pass(s, [])
    decreases |s|
  {
    if |s| > 0 {
      match UserTokenAt(s)
      case Some(t) =>
        OutboundUnknown(s[t.len..]);
        assert s == s[..t.len] + s[t.len..];
      case None =>
        OutboundUnknown(s[1..]);
        assert s == [s[0]] + s[1..];
    }
  }

  /** Splitting off the head of `a + x` leaves the rest of `a` in front
      of `x`. */
  lemma HeadTail(a: string, x: string)
    requires |a| > 0
    ensures (a + x)[0] == a[0] && (a + x)[1..] == a[1..] + x
    ensures [a[0]] + (a[1..] + x) == a + x
  {
    assert [a[0]] + a[1..] == a;
  }

  /** A native mention of a well-formed id is matched as exactly that id:
      the run of id characters stops at the closing `>`. */
  lemma UserTokenOfMention(id: string, rest: string)
    requires |id| > 0 && forall i :: 0 <= i < |id| ==> IsIdChar(id[i])
    ensures UserTokenAt(Mention(id) + rest) == Some(Token(id, |id| + 3))
  {
    var s := Mention(id) + rest;
    assert s[0] == '<' && s[1] == '@';
    assert s[2..] == id + (['>'] + rest);
    assert s[2..][|id|] == '>';
    assert s[2..2 + |id|] == id;
  }

  /** A mention of a memoised user becomes the tag of their name, which is
      collected; a mention of anyone else is kept verbatim. Either way the
      scan carries on right behind the mention. */
  lemma OutboundMention(id: string, rest: string, users: map<string, Profile>)
    requires |id| > 0 && forall i :: 0 <= i < |id| ==> IsIdChar(id[i])
    ensures var r := Outbound(rest, users);
      Outbound(Mention(id) + rest, users) ==
        if id in users then Pass(Tag(users[id].realName) + r.text, [users[id].realName] + r.names)
        else Pass(Mention(id) + r.text, r.names)
  {
    var s := Mention(id) + rest;
    UserTokenOfMention(id, rest);
    assert s[|id| + 3..] == rest;
    assert s[..|id| + 3] == Mention(id);
  }

  /** The scanner finds a mention exactly where the regular expression
      matches one. */
  lemma MentionTokenMatches(s: string)
    ensures UserTokenAt(s).Some? <==> MentionAt(s)
  {
    if MentionAt(s) {
      var j :| 3 <= j < |s| && s[j] == '>' && forall i :: 2 <= i < j ==> IsIdChar(s[i]);
      assert s[2..][j - 2] == '>';
    }
    if UserTokenAt(s).Some? {
      var t := UserTokenAt(s).value;
      var j := |t.body| + 2;
      assert s[..t.len] == Mention(t.body);
      assert |s[..t.len]| == |t.body| + 3;
      assert s[j] == s[..t.len][j];
      forall i | 2 <= i < j
        ensures IsIdChar(s[i])
      {
        assert s[i] == s[..t.len][i] == t.body[i - 2];
      }
    }
  }

  /** At a position where no mention starts, the first character is
      copied and the scan moves on by one: a `<` of a link or a channel
      reference is ordinary text. */
  lemma OutboundSkip(s: string, users: map<string, Profile>)
    requires |s| > 0 && !MentionAt(s)
    ensures Outbound(s, users) ==
      Pass([s[0]] + Outbound(s[1..], users).text, Outbound(s[1..], users).names)
  {
    MentionTokenMatches(s);
  }

  /** A character other than `<` starts no mention: it is copied and the
      scan moves on. */
  lemma OutboundStep(s: string, users: map<string, Profile>)
    requires |s| > 0 && s[0] != '<'
    ensures Outbound(s, users) ==
      Pass([s[0]] + Outbound(s[1..], users).text, Outbound(s[1..], users).names)
  {
    assert UserTokenAt(s).None?;
  }

  /** Text without `<` passes the outbound scan unchanged and the scan
      carries on behind it. */
  lemma {:induction false} OutboundPlain(a: string, x: string, users: map<string, Profile>)
    requires '<' !in a
    ensures Outbound(a + x, users) ==
      Pass(a + Outbound(x, users).text, Outbound(x, users).names)
    decreases |a|
  {
    if |a| == 0 {
      assert a + x == x;
    } else {
      var t := Outbound(x, users);
      HeadTail(a, x);
      HeadTail(a, t.text);
      OutboundStep(a + x, users);
      OutboundPlain(a[1..], x, users);
    }
  }

  // ---------------------------------------------------------------------------
  // inbound: portable tags to native mentions

  /** Where the message goes: a bridged channel, resolved through the
      reverse index, or a direct message, resolved through a fixed map
      from the recipient's name to their id. */
  datatype Target = Channel(workspace: string, channel: string) | Direct(ids: map<string, string>)

  /** The id a tagged name stands for on the receiving side: a truthy exact
      entry of the reverse index (where `cache.uid` answers with an id
      rather than a candidate list), or a truthy entry of the fixed map. */
  function Resolve(target: Target, uids: map<string, string>, name: string): (r: Option<string>)
    ensures r.Some? ==> r.value != ""
    ensures target.Direct? ==> (r.Some? <==> name in target.ids && target.ids[name] != "")
  {
    match target
    case Channel(workspace, channel) =>
      var key := IndexKey(workspace, channel, name);
      if Hit(uids, key) then Some(uids[key]) else None
    case Direct(ids) =>
      if name in ids && ids[name] != "" then Some(ids[name]) else None
  }

  /** Every `` `@Name` `` that resolves becomes `<@id>`; one that does not is
      kept verbatim and, for a channel target only, its name is collected. */
  function Inbound(s: string, target: Target, uids: map<string, string>): (r: Pass)
    ensures forall i :: 0 <= i < |r.names| ==> Resolve(target, uids, r.names[i]).None?
    ensures target.Direct? ==> r.names == []
    decreases |s|
  {
    if |s| == 0 then Pass("", [])
    else
      match NameTokenAt(s)
      case Some(t) =>
        var rest := Inbound(s[t.len..], target, uids);
        var id := Resolve(target, uids, t.body);
        if id.Some? then Pass(Mention(id.value) + rest.text, rest.names)
        else Pass(s[..t.len] + rest.text, (if target.Channel? then [t.body] else []) + rest.names)
      case None =>
        var rest := Inbound(s[1..], target, uids);
        Pass([s[0]] + rest.text, rest.names)
  }

  /** At a position where no tag starts, the first character is copied
      and the scan moves on by one: a backtick of inline code, or one with
      no closing backtick after it, is ordinary text. */
  lemma InboundSkip(s: string, target: Target, uids: map<string, string>)
    requires |s| > 0 && !TagAt(s)
    ensures Inbound(s, target, uids) ==
      Pass([s[0]] + Inbound(s[1..], target, uids).text, Inbound(s[1..], target, uids).names)
  {
    assert NameTokenAt(s).None?;
  }

  /** A character other than a backtick starts no tag: it is copied and
      the scan moves on. */
  lemma InboundStep(s: string, target: Target, uids: map<string, string>)
    requires |s| > 0 && s[0] != '`'
    ensures Inbound(s, target, uids) ==
      Pass([s[0]] + Inbound(s[1..], target, uids).text, Inbound(s[1..], target, uids).names)
  {
    assert NameTokenAt(s).None?;
  }

  /** Text without backticks passes the inbound scan unchanged and the scan
      carries on behind it. */
  lemma {:induction false} InboundPlain(a: string, x: string, target: Target, uids: map<string, string>)
    requires '`' !in a
    ensures Inbound(a + x, target, uids) ==
      Pass(a + Inbound(x, target, uids).text, Inbound(x, target, uids).names)
    decreases |a|
  {
    if |a| == 0 {
      assert a + x == x;
    } else {
      var t := Inbound(x, target, uids);
      HeadTail(a, x);
      HeadTail(a, t.text);
      InboundStep(a + x, target, uids);
      InboundPlain(a[1..], x, target, uids);
    }
  }

  /** A tag of a backtick-free name becomes the native mention of the id
      the name resolves to; a tag that does not resolve is kept verbatim
      and, for a channel target, its name is collected. Either way the
      scan carries on right behind the tag. */
  lemma InboundTag(name: string, rest: string, target: Target, uids: map<string, string>)
    requires '`' !in name
    ensures var r := Inbound(rest, target, uids);
      Inbound(Tag(name) + rest, target, uids) ==
        match Resolve(target, uids, name)
        case Some(id) => Pass(Mention(id) + r.text, r.names)
        case None => Pass(Tag(name) + r.text, (if target.Channel? then [name] else []) + r.names)
  {
    var s := Tag(name) + rest;
    NameTokenOfTag(name, rest);
    assert s[|name| + 3..] == rest;
    assert s[..|name| + 3] == Tag(name);
  }

  /** The roster used outbound agrees with the receiving channel's reverse
      index: every memoised user's name resolves, uniquely, to that user. */
  predicate SameRoster(users: map<string, Profile>, uids: map<string, string>, workspace: string, channel: string) {
    forall id :: id in users ==>
      && '`' !in users[id].realName
      && Hit(uids, IndexKey(workspace, channel, users[id].realName))
      && uids[IndexKey(workspace, channel, users[id].realName)] == id
  }

  /** Rewriting a backtick-free message outbound and then inbound against
      the same roster gives back the original text, every mention of a
      known user restored and every other mention untouched, with nothing
      reported unresolved. */
  lemma {:induction false} RoundTrip(s: string, users: map<string, Profile>, uids: map<string, string>,
                                     workspace: string, channel: string)
    requires '`' !in s
    requires SameRoster(users, uids, workspace, channel)
    ensures Inbound(Outbound(s, users).text, Channel(workspace, channel), uids) == Pass(s, [])
    decreases |s|
  {
    var target := Channel(workspace, channel);
    if |s| > 0 {
      match UserTokenAt(s)
      case Some(t) =>
        assert s == s[..t.len] + s[t.len..];
        RoundTrip(s[t.len..], users, uids, workspace, channel);
        var rest := Outbound(s[t.len..], users);
        if t.body in users {
          var n := users[t.body].realName;
          NameTokenOfTag(n, rest.text);
          assert (Tag(n) + rest.text)[|n| + 3..] == rest.text;
          assert Resolve(target, uids, n) == Some(t.body);
        } else {
          assert '`' !in s[..t.len];
          InboundPlain(s[..t.len], rest.text, target, uids);
        }
      case None =>
        assert s == [s[0]] + s[1..];
        RoundTrip(s[1..], users, uids, workspace, channel);
        InboundPlain([s[0]], Outbound(s[1..], users).text, target, uids);
    }
  }

  // ---------------------------------------------------------------------------
  // the delimiter warning and the whole rewrite

  /** The warning condition: the message starts with `@`, or has an `@`
      right after a character other than `<` and a backtick. */
  predicate Undelimited(s: string) {
    || (|s| > 0 && s[0] == '@')
    || exists i :: 1 <= i < |s| && s[i] == '@' && s[i - 1] != '<' && s[i - 1] != '`'
  }

  /** The scan behind the warning. */
  method NeedsDelimiterWarning(s: string) returns (warn: bool)
    ensures warn <==> Undelimited(s)
  {
    if |s| == 0 {
      return false;
    }
    if s[0] == '@' {
      return true;
    }
    var i := 1;
    while i < |s|
      invariant 1 <= i <= |s|
      invariant forall k :: 1 <= k < i ==> !(s[k] == '@' && s[k - 1] != '<' && s[k - 1] != '`')
    {
      if s[i] == '@' && s[i - 1] != '<' && s[i - 1] != '`' {
        return true;
      }
      i := i + 1;
    }
    return false;
  }

  /** The elements of `xs` not in `drop`, in order. */
  function Without(xs: seq<string>, drop: set<string>): (r: seq<string>)
    ensures forall x :: x in r <==> x in xs && x !in drop
    ensures |r| <= |xs|
  {
    if |xs| == 0 then []
    else (if xs[0] in drop then [] else [xs[0]]) + Without(xs[1..], drop)
  }

  /** The rewritten text, whether to warn about undelimited mentions, and
      the names to warn about as unresolved. */
  datatype Processed = Processed(text: string, warnDelimiters: bool, mismatches: seq<string>)

  /** `process_users`: warn about undelimited mentions, rewrite outbound,
      then inbound; the unresolved names exclude those that were resolved
      from native mentions in the same message. */
  method ProcessUsers(users: map<string, Profile>, message: string, target: Target, uids: map<string, string>)
    returns (r: Processed)
    ensures r.warnDelimiters <==> Undelimited(message)
    ensures r.text == Inbound(Outbound(message, users).text, target, uids).text
    ensures forall n :: n in r.mismatches <==>
      && n in Inbound(Outbound(message, users).text, target, uids).names
      && n !in Outbound(message, users).names
    ensures forall n :: n in r.mismatches ==> Resolve(target, uids, n).None?
    ensures target.Direct? ==> r.mismatches == []
  {
    var warn := NeedsDelimiterWarning(message);
    var out := Outbound(message, users);
    var back := Inbound(out.text, target, uids);
    var locals := set i | 0 <= i < |out.names| :: out.names[i];
    assert forall n :: n in locals <==> n in out.names;
    return Processed(back.text, warn, Without(back.names, locals));
  }
}

=== FILE: messages.dfy ===
/** The correlation store of messages.js: an in-memory table from a message
    timestamp to the coordinates of its mirrored copy, with one entry point
    whose behaviour is chosen by the value argument, and the row literal the
    relational back end builds for an insert. */
module Messages {
  import opened Values
  import opened Text

  /** One correlation record. A field the caller left out, or set to
      something falsy, is the empty string here: the store only ever asks
      whether a field is truthy. */
  datatype Record = Record(
    inWorkspace: string,
    inChannel: string,
    outWorkspace: string,
    outChannel: string,
    outConversation: string,
    outTs: string)
  {
    /** Every one of the six required fields is present. */
    predicate Complete() {
      && inWorkspace != "" && inChannel != "" && outWorkspace != ""
      && outChannel != "" && outConversation != "" && outTs != ""
    }
  }

  type Table = map<string, Record>

  /** The value argument: `undefined` asks for a lookup, `null` for a delete,
      and a record for an insert. */
  datatype Request = Get | Delete | Put(record: Record)

  /** What the call returns: the stored record (or `undefined`), or a flag. */
  datatype Reply = Found(hit: Option<Record>) | Done(ok: bool)

  /** The store's single entry point, returning the new table and the reply. */
  function Store(table: Table, key: string, request: Request): (r: (Table, Reply))
    ensures request.Get? ==> r.0 == table
    ensures request.Get? ==> r.1 == Found(if key in table then Some(table[key]) else None)
    ensures request.Delete? ==> r.1 == Done(true) && key !in r.0
    ensures request.Delete? ==> forall k :: k in table && k != key ==> k in r.0 && r.0[k] == table[k]
    ensures request.Delete? ==> r.0.Keys == table.Keys - {key}
    ensures request.Put? ==> (r.1 == Done(true) <==> key !in table && request.record.Complete())
    ensures request.Put? && r.1 == Done(true) ==> r.0 == table[key := request.record]
    ensures request.Put? && r.1 != Done(true) ==> r.1 == Done(false) && r.0 == table
  {
    match request
    case Get => (table, Found(if key in table then Some(table[key]) else None))
    case Delete => (table - {key}, Done(true))
    case Put(record) =>
      if key in table || !record.Complete() then (table, Done(false))
      else (table[key := record], Done(true))
  }

  // ---------------------------------------------------------------------------
  // properties relating successive calls

  /** A lookup of a key just inserted yields exactly the inserted record. */
  lemma PutThenGet(table: Table, key: string, record: Record)
    requires key !in table && record.Complete()
    ensures var (t, ok) := Store(table, key, Put(record));
      ok == Done(true) && Store(t, key, Get).1 == Found(Some(record))
  {
  }

  /** A second insert on a key that is already taken fails and changes
      nothing, whatever record it carries. */
  lemma PutTwice(table: Table, key: string, first: Record, second: Record)
    requires Store(table, key, Put(first)).1 == Done(true)
    ensures var t := Store(table, key, Put(first)).0;
      Store(t, key, Put(second)) == (t, Done(false))
      && Store(t, key, Get).1 == Found(Some(first))
  {
  }

  /** After a delete, a lookup yields `undefined` and every other key is
      untouched. */
  lemma DeleteThenGet(table: Table, key: string, other: string)
    requires other != key
    ensures var t := Store(table, key, Delete).0;
      Store(t, key, Get).1 == Found(None)
      && Store(t, other, Get).1 == Store(table, other, Get).1
  {
  }

  /** A deleted key can be inserted afresh with any complete record. */
  lemma DeleteThenPut(table: Table, key: string, record: Record)
    requires record.Complete()
    ensures var t := Store(table, key, Delete).0;
      Store(t, key, Put(record)) == (t[key := record], Done(true))
  {
  }

  // ---------------------------------------------------------------------------
  // the row literal

  const Columns: string :=
    "(in_ts, in_workspace, in_channel, out_workspace, out_channel, out_conversation, out_ts)"

  /** Everything before the first quoted value. */
  const Head: string := Columns + " VALUES ("

  /** The seven column values of a row, in column order. */
  function Fields(inTs: string, record: Record): seq<string> {
    [inTs, record.inWorkspace, record.inChannel, record.outWorkspace,
     record.outChannel, record.outConversation, record.outTs]
  }

  function Quote(v: string): string {
    "'" + v + "'"
  }

  /** Values each wrapped in single quotes, without escaping, joined by ", ". */
  function QuotedList(vs: seq<string>): string
    requires |vs| >= 1
  {
    if |vs| == 1 then Quote(vs[0]) else Quote(vs[0]) + ", " + QuotedList(vs[1..])
  }

  /** The column list followed by `VALUES (...)` with the seven values. */
  function Serialize(inTs: string, record: Record): string {
    Head + QuotedList(Fields(inTs, record)) + ")"
  }

  /** Reads back a list of quoted values closed by ")", each value running
      up to the next single quote. */
  function ParseList(s: string): Option<seq<string>>
    decreases |s|
  {
    if |s| == 0 || s[0] != '\'' || '\'' !in s[1..] then None
    else
      var j := 1 + IndexOf(s[1..], '\'');
      var rest := s[j + 1..];
      if rest == ")" then Some([s[1..j]])
      else if |rest| >= 2 && rest[..2] == ", " then
        match ParseList(rest[2..])
        case Some(vs) => Some([s[1..j]] + vs)
        case None => None
      else None
  }

  /** Reads back the values of a row literal. */
  function ParseRow(s: string): Option<seq<string>> {
    if StartsWith(s, Head) then ParseList(s[|Head|..]) else None
  }

  predicate QuoteFree(vs: seq<string>) {
    forall i :: 0 <= i < |vs| ==> '\'' !in vs[i]
  }

  /** The reader takes a quoted, quote-free value up to its closing quote
      and carries on with what follows. */
  lemma ParseValue(v: string, tail: string)
    requires '\'' !in v
    ensures var s := "'" + v + "'" + tail;
      && s[0] == '\'' && '\'' in s[1..]
      && 1 + IndexOf(s[1..], '\'') == |v| + 1
      && s[1..|v| + 1] == v
      && s[|v| + 2..] == tail
  {
    var s := "'" + v + "'" + tail;
    assert s[1..] == v + ['\''] + tail;
    IndexOfAfter(v, '\'', tail);
    assert s[1..][|v|] == '\'';
  }

  /** The last value of a list. */
  lemma ParseLast(v: string)
    requires '\'' !in v
    ensures ParseList(Quote(v) + ")") == Some([v])
  {
    ParseValue(v, ")");
  }

  /** A value followed by more values. */
  lemma ParseMore(v: string, rest: string, vs: seq<string>)
    requires '\'' !in v
    requires ParseList(rest) == Some(vs)
    ensures ParseList(Quote(v) + (", " + rest)) == Some([v] + vs)
  {
    var tail := ", " + rest;
    var s := Quote(v) + tail;
    ParseValue(v, tail);
    var j := 1 + IndexOf(s[1..], '\'');
    assert s[j + 1..] == tail;
    assert tail[0] == ',' && tail != ")";
    assert |tail| >= 2 && tail[..2] == ", ";
    assert tail[2..] == rest;
    assert ParseList(s) == Some([s[1..j]] + vs);
  }

  lemma {:induction false} ParseQuotedList(vs: seq<string>)
    requires |vs| >= 1 && QuoteFree(vs)
    ensures ParseList(QuotedList(vs) + ")") == Some(vs)
  {
    var v := vs[0];
    if |vs| == 1 {
      assert QuotedList(vs) == Quote(v);
      ParseLast(v);
      assert vs == [v];
    } else {
      var q := QuotedList(vs[1..]);
      assert QuotedList(vs) == Quote(v) + ", " + q;
      assert QuotedList(vs) + ")" == Quote(v) + (", " + (q + ")"));
      ParseQuotedList(vs[1..]);
      ParseMore(v, q + ")", vs[1..]);
      assert [v] + vs[1..] == vs;
    }
  }

  /** The row literal reads back to its seven values, in column order, as
      long as no value holds a single quote. */
  lemma SerializeRoundTrip(inTs: string, record: Record)
    requires QuoteFree(Fields(inTs, record))
    ensures ParseRow(Serialize(inTs, record)) == Some(Fields(inTs, record))
  {
    var s := Serialize(inTs, record);
    assert s[..|Head|] == Head;
    assert s[|Head|..] == QuotedList(Fields(inTs, record)) + ")";
    ParseQuotedList(Fields(inTs, record));
  }

  /** One more value in front of a quoted list. */
  lemma QuotedCons(v: string, vs: seq<string>)
    requires |vs| >= 1
    ensures QuotedList([v] + vs) == Quote(v) + ", " + QuotedList(vs)
  {
    assert ([v] + vs)[1..] == vs;
  }

  /** Quoting without escaping: two quoted values joined by ", " read like
      one value holding `', '`. */
  lemma QuoteSplice(a: string, b: string)
    ensures Quote(a + "', '" + b) == Quote(a) + ", " + Quote(b)
  {
    assert "', '" == "'" + ", " + "'";
  }

  /** Anywhere in a list, one value holding `', '` quotes to the same text
      as the two values around it. */
  lemma {:induction false} QuotedListSplice(xs: seq<string>, a: string, b: string, ys: seq<string>)
    ensures QuotedList(xs + [a + "', '" + b] + ys) == QuotedList(xs + [a, b] + ys)
    decreases |xs|
  {
    QuoteSplice(a, b);
    if |xs| == 0 {
      assert xs + [a + "', '" + b] + ys == [a + "', '" + b] + ys;
      assert xs + [a, b] + ys == [a] + ([b] + ys);
      if |ys| == 0 {
        assert [a + "', '" + b] + ys == [a + "', '" + b];
        assert [b] + ys == [b];
        QuotedCons(a, [b]);
      } else {
        QuotedCons(a + "', '" + b, ys);
        QuotedCons(b, ys);
        QuotedCons(a, [b] + ys);
      }
    } else {
      var joined := xs[1..] + [a + "', '" + b] + ys;
      var apart := xs[1..] + [a, b] + ys;
      assert xs + [a + "', '" + b] + ys == [xs[0]] + joined;
      assert xs + [a, b] + ys == [xs[0]] + apart;
      QuotedListSplice(xs[1..], a, b, ys);
      QuotedCons(xs[0], joined);
      QuotedCons(xs[0], apart);
    }
  }

  /** Because nothing is escaped, a timestamp holding `', '` produces the
      same row literal as a different timestamp and record: the literal
      does not determine what was stored. */
  lemma SerializeNotInjective(a: string, b: string, record: Record)
    ensures var shifted := Record(b, record.inWorkspace, record.inChannel,
                                  record.outWorkspace, record.outChannel,
                                  record.outConversation + "', '" + record.outTs);
      Serialize(a + "', '" + b, record) == Serialize(a, shifted)
  {
    var shifted := Record(b, record.inWorkspace, record.inChannel,
                          record.outWorkspace, record.outChannel,
                          record.outConversation + "', '" + record.outTs);
    var rest := [record.inWorkspace, record.inChannel, record.outWorkspace, record.outChannel];
    var all := [a, b] + rest + [record.outConversation, record.outTs];
    assert Fields(a + "', '" + b, record) == [] + [a + "', '" + b] + (rest + [record.outConversation, record.outTs]);
    QuotedListSplice([], a, b, rest + [record.outConversation, record.outTs]);
    assert [] + [a, b] + (rest + [record.outConversation, record.outTs]) == all;
    assert Fields(a, shifted) == [a, b] + rest + [record.outConversation + "', '" + record.outTs] + [];
    QuotedListSplice([a, b] + rest, record.outConversation, record.outTs, []);
    assert [a, b] + rest + [record.outConversation, record.outTs] + [] == all;
  }
}

=== FILE: router.dfy ===
/** The event router of index.js: duplicate suppression and dispatch of
    inbound payloads (`handle_connection`), the classification at the top of
    `handle_event`, and the correlation bookkeeping around relaying a post
    and propagating a deletion. */
module Router {
  import opened Values
  import opened Messages

  /** The parts of a platform event that decide how it is handled.
      `subtype` is "" when the event has none; `fromBot` is whether the
      event or its embedded message carries a bot id. */
  datatype Event = Event(kind: string, subtype: string, fromBot: bool)

  /** An already-parsed payload: its `type` (absent for slash commands),
      its event, and the handshake challenge ("" when absent). */
  datatype Payload = Payload(kind: Option<string>, event: Option<Event>, challenge: string)

  /** What the connection handler does: answer with a fixed body, hand the
      payload to the command handler (whose text becomes the body), or
      answer with an empty body and handle the event in the background. */
  datatype Response = Reply(body: string) | RunCommand(payload: Payload) | RunEvent(event: Event)

  /** `handle_connection`: a raw body seen before is acknowledged with an
      empty reply and nothing else; any other is remembered first (the
      empty body included) and then dispatched on its type. */
  function HandleConnection(seen: set<string>, raw: string, payload: Payload): (r: (set<string>, Response))
    ensures raw in seen ==> r == (seen, Reply(""))
    ensures raw !in seen ==> r.0 == seen + {raw}
    ensures raw !in seen && raw == "" ==> r.1 == Reply("Empty request payload")
    ensures raw !in seen && raw != "" ==>
      && (payload.kind.None? <==> r.1.RunCommand?)
      && (r.1.RunEvent? <==> payload.kind == Some("event_callback") && payload.event.Some?)
      && (payload.kind == Some("url_verification") ==> r.1 == Reply(payload.challenge))
      && (payload.kind == Some("event_callback") && payload.event.None? ==>
            r.1 == Reply("event_callback without associated event"))
      && (payload.kind.Some? && payload.kind.value != "event_callback" && payload.kind.value != "url_verification" ==>
            r.1 == Reply("Unhandled request type: '" + payload.kind.value + "'"))
  {
    if raw in seen then (seen, Reply(""))
    else
      var seen' := seen + {raw};
      if raw == "" then (seen', Reply("Empty request payload"))
      else
        match payload.kind
        case None => (seen', RunCommand(payload))
        case Some(kind) =>
          if kind == "event_callback" then
            match payload.event
            case Some(e) => (seen', RunEvent(e))
            case None => (seen', Reply("event_callback without associated event"))
          else if kind == "url_verification" then (seen', Reply(payload.challenge))
          else (seen', Reply("Unhandled request type: '" + kind + "'"))
  }

  /** A sequence of deliveries, each a raw body with its parsed payload,
      handled one after another. */
  function Run(seen: set<string>, deliveries: seq<(string, Payload)>): (r: (set<string>, seq<Response>))
    ensures |r.1| == |deliveries|
    ensures seen <= r.0
    decreases |deliveries|
  {
    if |deliveries| == 0 then (seen, [])
    else
      var (seen1, first) := HandleConnection(seen, deliveries[0].0, deliveries[0].1);
      var (seen2, rest) := Run(seen1, deliveries[1..]);
      (seen2, [first] + rest)
  }

  /** A delivery whose raw body was seen before, or was delivered earlier
      in the same run, is only acknowledged. */
  lemma {:induction false} RunRepeats(seen: set<string>, deliveries: seq<(string, Payload)>, j: nat)
    requires j < |deliveries|
    requires deliveries[j].0 in seen || exists i :: 0 <= i < j && deliveries[i].0 == deliveries[j].0
    ensures Run(seen, deliveries).1[j] == Reply("")
    decreases |deliveries|
  {
    var (seen1, first) := HandleConnection(seen, deliveries[0].0, deliveries[0].1);
    if j > 0 {
      var tail := deliveries[1..];
      assert tail[j - 1] == deliveries[j];
      if deliveries[j].0 !in seen1 {
        var i :| 0 <= i < j && deliveries[i].0 == deliveries[j].0;
        assert i > 0;
        assert tail[i - 1] == deliveries[i];
      }
      RunRepeats(seen1, tail, j - 1);
    }
  }

  /** Every raw body is processed at most once: only its first delivery
      can get past the duplicate check. */
  lemma AtMostOnce(seen: set<string>, deliveries: seq<(string, Payload)>, i: nat, j: nat)
    requires i < j < |deliveries| && deliveries[i].0 == deliveries[j].0
    ensures Run(seen, deliveries).1[j] == Reply("")
  {
    RunRepeats(seen, deliveries, j);
  }

  // ---------------------------------------------------------------------------
  // handle_event

  /** How `handle_event` treats an event. A file share is warned about and
      then, as the source falls through, relayed like a message. */
  datatype Handling = Join | Leave | Reaction | WarnThenRelay | Unhandled | FromBot | Deleted | Changed | Relay

  function Classify(e: Event): (r: Handling)
    ensures (r.Relay? || r.WarnThenRelay?) ==> (e.kind == "message" && !e.fromBot) || e.subtype == "file_share"
    ensures (r.Relay? || r.Deleted? || r.Changed?) ==> e.kind == "message" && !e.fromBot
    ensures e.fromBot && e.subtype != "file_share" ==> !r.Relay? && !r.Deleted? && !r.Changed?
    ensures r.WarnThenRelay? <==>
      e.subtype == "file_share"
      && e.kind !in {"member_joined_channel", "member_left_channel", "reaction_added"}
    ensures r.Deleted? <==> e.kind == "message" && !e.fromBot && e.subtype == "message_deleted"
    ensures r.Relay? <==>
      e.kind == "message" && !e.fromBot && e.subtype !in {"file_share", "message_deleted", "message_changed"}
    ensures r.Join? <==> e.kind == "member_joined_channel"
    ensures r.Leave? <==> e.kind == "member_left_channel"
    ensures r.Reaction? <==> e.kind == "reaction_added"
    ensures r.Changed? <==> e.kind == "message" && !e.fromBot && e.subtype == "message_changed"
    ensures r.Unhandled? <==>
      e.kind !in {"member_joined_channel", "member_left_channel", "reaction_added", "message"}
      && e.subtype != "file_share"
    ensures r.FromBot? <==> e.kind == "message" && e.fromBot && e.subtype != "file_share"
  {
    if e.kind == "member_joined_channel" then Join
    else if e.kind == "member_left_channel" then Leave
    else if e.kind == "reaction_added" then Reaction
    else if e.subtype == "file_share" then WarnThenRelay
    else if e.kind != "message" then Unhandled
    else if e.fromBot then FromBot
    else if e.subtype == "message_deleted" then Deleted
    else if e.subtype == "message_changed" then Changed
    else Relay
  }

  /** Whether a bot sent the event matters only for messages other than
      file shares: there it decides between dropping the event and
      handling it as a delete, an edit or a relay. */
  lemma ClassifyBotOnlyForMessages(e: Event)
    ensures e.kind != "message" || e.subtype == "file_share" ==>
      Classify(e) == Classify(e.(fromBot := !e.fromBot))
    ensures e.kind == "message" && e.subtype != "file_share" ==>
      Classify(e.(fromBot := true)) == FromBot && Classify(e.(fromBot := false)) != FromBot
  {
  }

  /** A relayed post: the inbound message's timestamp and channel id, the
      local workspace and channel names, the paired workspace and channel,
      and the channel id and timestamp the platform acknowledged for the
      copy. When posting failed, the acknowledgement carries neither. */
  datatype Post = Post(
    eventTs: string,
    eventChannel: string,
    workspace: string,
    channel: string,
    pairedWorkspace: string,
    pairedChannel: string,
    ackChannel: Option<string>,
    ackTs: Option<string>)

  /** A field of the acknowledgement as a record field: a missing one is
      falsy. */
  function Present(field: Option<string>): string {
    if field.Some? then field.value else ""
  }

  /** The key the backward record is stored under: the copy's timestamp,
      or, when there is none, the text an `undefined` key becomes. */
  function AckKey(p: Post): string {
    if p.ackTs.Some? then p.ackTs.value else "undefined"
  }

  /** The record keyed by the original, pointing at the copy. */
  function Forward(p: Post): Record {
    Record(p.workspace, p.channel, p.pairedWorkspace, p.pairedChannel, Present(p.ackChannel), Present(p.ackTs))
  }

  /** The record keyed by the copy, roles swapped, pointing at the original. */
  function Backward(p: Post): Record {
    Record(p.pairedWorkspace, p.pairedChannel, p.workspace, p.channel, p.eventChannel, p.eventTs)
  }

  /** The two inserts after a post, each one refused or accepted on its own;
      the flags say which went in. */
  function RecordPost(table: Table, p: Post): (r: (Table, bool, bool))
    ensures r.1 <==> p.eventTs !in table && Forward(p).Complete()
    ensures r.2 <==> AckKey(p) !in table && (AckKey(p) == p.eventTs ==> !r.1) && Backward(p).Complete()
    ensures r.1 && r.2 ==> r.0 == table[p.eventTs := Forward(p)][AckKey(p) := Backward(p)]
    ensures r.1 && !r.2 ==> r.0 == table[p.eventTs := Forward(p)]
    ensures !r.1 && r.2 ==> r.0 == table[AckKey(p) := Backward(p)]
    ensures !r.1 && !r.2 ==> r.0 == table
    ensures AckKey(p) == p.eventTs ==> !(r.1 && r.2)
    ensures p.ackTs.None? ==> !r.1
  {
    var (t1, forward) := Store(table, p.eventTs, Put(Forward(p)));
    var (t2, backward) := Store(t1, AckKey(p), Put(Backward(p)));
    (t2, forward == Done(true), backward == Done(true))
  }

  /** A failed post records no forward record, but its backward record is
      complete and lands under the key "undefined" if that key is free;
      after that, every later failed post is refused both records. */
  lemma FailedPostStray(table: Table, p: Post, q: Post)
    requires p.ackTs.None? && q.ackTs.None?
    requires "undefined" !in table && Backward(p).Complete()
    ensures RecordPost(table, p) == (table["undefined" := Backward(p)], false, true)
    ensures var t := RecordPost(table, p).0;
      RecordPost(t, q) == (t, false, false)
  {
  }

  /** After both inserts the two records form one edge read from either
      end: each is found under the other's destination timestamp, and the
      copy's record starts where the original's ends and ends where it
      starts. */
  lemma PostLinksBothWays(table: Table, p: Post)
    requires RecordPost(table, p).1 && RecordPost(table, p).2
    ensures var t := RecordPost(table, p).0;
      && p.ackTs.Some? && Forward(p).outTs == AckKey(p)
      && Store(t, p.eventTs, Get).1 == Found(Some(Forward(p)))
      && Store(t, Forward(p).outTs, Get).1 == Found(Some(Backward(p)))
      && Backward(p).outTs == p.eventTs
      && Backward(p).inWorkspace == Forward(p).outWorkspace && Backward(p).inChannel == Forward(p).outChannel
      && Backward(p).outWorkspace == Forward(p).inWorkspace && Backward(p).outChannel == Forward(p).inChannel
  {
  }

  /** The `message_deleted` bookkeeping: when the deleted timestamp has a
      record, that record and the one keyed by its destination timestamp
      are both removed; otherwise nothing changes. */
  function RecordDelete(table: Table, deletedTs: string): (r: Table)
    ensures deletedTs in table ==> r == table - {deletedTs, table[deletedTs].outTs}
    ensures deletedTs !in table ==> r == table
  {
    match Store(table, deletedTs, Get).1
    case Found(Some(copy)) =>
      var t1 := Store(table, deletedTs, Delete).0;
      Store(t1, copy.outTs, Delete).0
    case _ => table
  }

  /** Deleting either end of a relayed post, once both of its records were
      written, removes both and restores the table as it was before. */
  lemma DeleteUndoesPost(table: Table, p: Post)
    requires RecordPost(table, p).1 && RecordPost(table, p).2
    ensures RecordDelete(RecordPost(table, p).0, p.eventTs) == table
    ensures RecordDelete(RecordPost(table, p).0, AckKey(p)) == table
  {
    var t := RecordPost(table, p).0;
    assert t - {p.eventTs, AckKey(p)} == table;
    assert t - {AckKey(p), p.eventTs} == table;
  }
}

=== FILE: sessions.dfy ===
/** The direct-message session table of index.js: per initiating user, the
    remote user they are tunnelling to and the bridge context that licensed
    it. Sessions are created empty on first touch, paired by `select_user`,
    and unpaired (their target cleared) by the error paths of the `dm`
    command and by channel-leave events. */
module Sessions {
  import opened Values
  import opened Text
  import opened Topology
  import opened Identity

  /** A session's fields; `None` is a field never set or set to `undefined`. */
  datatype Session = Session(
    outWorkspace: Option<string>,
    inChannel: Option<string>,
    uid: Option<string>,
    command: Option<string>)

  const Blank: Session := Session(None, None, None, None)

  type Sessions = map<string, Session>

  /** `cache.dm`: the user's session, created empty on first use. */
  function Dm(dms: Sessions, user: string): (r: (Sessions, Session))
    ensures user in r.0 && r.0[user] == r.1
    ensures r.0.Keys == dms.Keys + {user}
    ensures forall u :: u in dms ==> r.0[u] == dms[u]
    ensures user !in dms ==> r.1 == Blank
  {
    if user in dms then (dms, dms[user]) else (dms[user := Blank], Blank)
  }

  /** `dmer`'s session points at `target`. */
  predicate Targets(dms: Sessions, dmer: string, target: string) {
    dmer in dms && dms[dmer].uid == Some(target)
  }

  /** `cache.dmers`: every user whose session points at `target`, once each. */
  method Dmers(dms: Sessions, target: string) returns (r: seq<string>)
    ensures forall d :: d in r <==> Targets(dms, d, target)
    ensures forall i, j :: 0 <= i < j < |r| ==> r[i] != r[j]
  {
    r := [];
    var rest := dms.Keys;
    while rest != {}
      invariant rest <= dms.Keys
      invariant forall d :: d in r <==> d !in rest && Targets(dms, d, target)
      invariant forall i, j :: 0 <= i < j < |r| ==> r[i] != r[j]
      decreases rest
    {
      var d :| d in rest;
      if dms[d].uid == Some(target) {
        r := r + [d];
      }
      rest := rest - {d};
    }
  }

  /** `cache.dm(user).uid = undefined`: the session exists afterwards and
      has no target; nothing else changes. */
  function Clear(dms: Sessions, user: string): (r: Sessions)
    ensures r.Keys == dms.Keys + {user}
    ensures r[user].uid == None
    ensures forall u :: u in dms && u != user ==> r[u] == dms[u]
    ensures user in dms ==> r[user] == dms[user].(uid := None)
    ensures user !in dms ==> r[user] == Blank
  {
    var (d, s) := Dm(dms, user);
    d[user := s.(uid := None)]
  }

  /** `select_user`'s writes: the session records the remote workspace, the
      local channel and the target, and the slash command only when one
      (non-empty) is given. */
  function SelectUser(dms: Sessions, dmer: string, inChannel: string, outWorkspace: string, dmee: string,
                      command: Option<string>): (r: Sessions)
    ensures r.Keys == dms.Keys + {dmer}
    ensures forall u :: u in dms && u != dmer ==> r[u] == dms[u]
    ensures r[dmer].outWorkspace == Some(outWorkspace)
    ensures r[dmer].inChannel == Some(inChannel)
    ensures r[dmer].uid == Some(dmee)
    ensures command.Some? && command.value != "" ==> r[dmer].command == command
    ensures !(command.Some? && command.value != "") ==>
      r[dmer].command == (if dmer in dms then dms[dmer].command else None)
  {
    var (d, s) := Dm(dms, dmer);
    var remembered := if command.Some? && command.value != "" then command else s.command;
    d[dmer := Session(Some(outWorkspace), Some(inChannel), Some(dmee), remembered)]
  }

  /** Re-pairing replaces the previous target: afterwards `dmer` points at
      `dmee` and at nobody else, and every other user still points where
      they did. */
  lemma SelectUserRetargets(dms: Sessions, dmer: string, inChannel: string, outWorkspace: string, dmee: string,
                            command: Option<string>, other: string, target: string)
    ensures var r := SelectUser(dms, dmer, inChannel, outWorkspace, dmee, command);
      && (Targets(r, dmer, target) <==> target == dmee)
      && (other != dmer ==> (Targets(r, other, target) <==> Targets(dms, other, target)))
  {
  }

  // ---------------------------------------------------------------------------
  // the `dm` command

  /** ` - ` occurs in `s` at position `j`. */
  predicate DashAt(s: string, j: int) {
    0 <= j && j + 3 <= |s| && s[j..j + 3] == " - "
  }

  /** `/(.*) - (.*)/` with a greedy first group: the position of the last
      ` - ` in `s`. */
  function LastDash(s: string): (r: Option<nat>)
    ensures r.Some? ==> DashAt(s, r.value)
    ensures r.Some? ==> forall j :: r.value < j ==> !DashAt(s, j)
    ensures r.None? ==> forall j :: !DashAt(s, j)
  {
    if |s| < 3 then None
    else if s[|s| - 3..] == " - " then Some(|s| - 3)
    else
      var r := LastDash(s[..|s| - 1]);
      assert forall j :: DashAt(s, j) ==> j + 3 < |s| && DashAt(s[..|s| - 1], j) by {
        forall j | DashAt(s, j)
          ensures j + 3 < |s| && DashAt(s[..|s| - 1], j)
        {
          assert s[..|s| - 1][j..j + 3] == s[j..j + 3];
        }
      }
      r
  }

  /** The arguments after the optional ` - channel` suffix is taken off:
      the user name, the channel to try first, and the inferred channel to
      fall back on ("" when there is none). */
  datatype DmArgs = DmArgs(name: string, channel: string, fallback: string)

  function SplitDmArgs(args: string, inferred: string): (r: DmArgs)
    ensures LastDash(args).None? ==> r == DmArgs(args, inferred, "")
    ensures LastDash(args).Some? ==> args == r.name + " - " + r.channel && r.fallback == inferred
    ensures LastDash(args).Some? ==> |r.name| == LastDash(args).value
    ensures LastDash(args).Some? ==> forall j :: !DashAt(r.channel, j)
  {
    match LastDash(args)
    case Some(i) =>
      var tail := args[i + 3..];
      assert forall j :: DashAt(tail, j) ==> DashAt(args, i + 3 + j) by {
        forall j | DashAt(tail, j)
          ensures DashAt(args, i + 3 + j)
        {
          assert args[i + 3 + j..i + 3 + j + 3] == tail[j..j + 3];
        }
      }
      assert args == args[..i] + " - " + tail by {
        assert args[i..i + 3] == " - ";
        assert args == args[..i] + args[i..i + 3] + tail;
      }
      DmArgs(args[..i], tail, inferred)
    case None => DmArgs(args, inferred, "")
  }

  /** The replies of the `dm` command; `Crashed` is the membership check
      throwing on a user whose profile is not memoised. */
  datatype DmReply =
    | NoChannel
    | NotBridged(channel: string)
    | NotMember(channel: string)
    | NoTarget
    | NoMatch(name: string, channel: string)
    | Selected(target: string)
    | Crashed

  datatype DmOutcome = DmOutcome(reply: DmReply, lines: Lines, dms: Sessions)

  /** `is_member`: the user's memoised profile name resolves exactly in the
      scope; `None` when no profile is memoised, where the source throws. */
  function IsMember(dir: Directory, workspace: string, channel: string, user: string): (r: Option<bool>)
    ensures r.None? <==> user !in dir.users
    ensures r == Some(true) <==>
      user in dir.users && Hit(dir.uids, IndexKey(workspace, channel, dir.users[user].realName))
  {
    if user !in dir.users then None
    else Some(Hit(dir.uids, IndexKey(workspace, channel, dir.users[user].realName)))
  }

  /** A user whose name was just registered in a scope, as `cache.user`
      does in updating mode, passes the membership check there. */
  lemma RegisteredIsMember(dir: Directory, id: string, channel: string, workspace: string, fetched: Option<Profile>)
    requires id != ""
    requires User(dir, id, channel, workspace, true, fetched).1.Value?
    ensures IsMember(User(dir, id, channel, workspace, true, fetched).0, workspace, channel, id) == Some(true)
  {
    UserRegisters(dir, id, channel, workspace, fetched);
  }

  /** A user forgotten in a scope by `cache.unuser` fails the membership
      check there (without throwing: their profile is now memoised). */
  lemma UnuserNotMember(dir: Directory, id: string, channel: string, workspace: string, fetched: Option<Profile>)
    requires Unuser(dir, id, channel, workspace, fetched).Some?
    ensures IsMember(Unuser(dir, id, channel, workspace, fetched).value, workspace, channel, id) == Some(false)
  {
  }

  /** The channel tried first, with the fallback to the inferred channel
      when that is not bridged, giving the name, channel and pairing the
      rest of the command works with. */
  datatype Resolved = Resolved(name: string, channel: string, lines: Lines, paired: Option<Pair>)

  function ResolveChannel(lines: Lines, env: Environment, team: string, a: DmArgs): Resolved
    requires a.channel != ""
  {
    var (lines1, first) := Line(lines, env, team, a.channel);
    if first.None? && a.fallback != "" then
      var (lines2, second) := Line(lines1, env, team, a.fallback);
      Resolved(a.name + " - " + a.channel, a.fallback, lines2, second)
    else Resolved(a.name, a.channel, lines1, first)
  }

  /** The `dm` branch of `handle_command`, from the arguments onwards
      (argument rewriting happens before and is not part of this model). */
  function DmCommand(dms: Sessions, lines: Lines, env: Environment, dir: Directory,
                     user: string, team: string, inferred: string, args: string, slash: string): (r: DmOutcome)
    ensures (r.reply.NotBridged? || r.reply.NotMember? || r.reply.NoTarget? || r.reply.NoMatch?) ==>
      r.dms == Clear(dms, user)
    ensures r.reply.NoChannel? || r.reply.Crashed? ==> r.dms == dms
    ensures r.reply.NoChannel? <==> SplitDmArgs(args, inferred).channel == ""
    ensures r.reply.NoChannel? ==> r.lines == lines
    ensures var a := SplitDmArgs(args, inferred);
      a.channel != "" ==>
        var res := ResolveChannel(lines, env, team, a);
        var member := IsMember(dir, team, res.channel, user);
        var key := if res.paired.Some? then IndexKey(res.paired.value.workspace, res.paired.value.channel, res.name) else "";
        && r.lines == res.lines
        && (r.reply.NotBridged? <==> res.paired.None?)
        && (r.reply.Crashed? <==> res.paired.Some? && member.None?)
        && (r.reply.NotMember? <==> res.paired.Some? && member == Some(false))
        && (r.reply.NoTarget? <==> res.paired.Some? && member == Some(true) && res.name == "")
        && (r.reply.NoMatch? <==> res.paired.Some? && member == Some(true) && res.name != "" && !Hit(dir.uids, key))
        && (r.reply.Selected? <==> res.paired.Some? && member == Some(true) && res.name != "" && Hit(dir.uids, key))
        && (r.reply.NotBridged? || r.reply.NotMember? ==> r.reply.channel == res.channel)
        && (r.reply.NoMatch? ==> r.reply == NoMatch(res.name, res.channel))
    ensures r.reply.Selected? ==>
      var res := ResolveChannel(lines, env, team, SplitDmArgs(args, inferred));
      && res.paired.Some?
      && IsMember(dir, team, res.channel, user) == Some(true)
      && Hit(dir.uids, IndexKey(res.paired.value.workspace, res.paired.value.channel, res.name))
      && r.reply.target == dir.uids[IndexKey(res.paired.value.workspace, res.paired.value.channel, res.name)]
      && r.dms == SelectUser(dms, user, res.channel, res.paired.value.workspace, r.reply.target, Some(slash))
  {
    var a := SplitDmArgs(args, inferred);
    if a.channel == "" then DmOutcome(NoChannel, lines, dms)
    else
      var res := ResolveChannel(lines, env, team, a);
      if res.paired.None? then DmOutcome(NotBridged(res.channel), res.lines, Clear(dms, user))
      else
        match IsMember(dir, team, res.channel, user)
        case None => DmOutcome(Crashed, res.lines, dms)
        case Some(member) =>
          if !member then DmOutcome(NotMember(res.channel), res.lines, Clear(dms, user))
          else if res.name == "" then DmOutcome(NoTarget, res.lines, Clear(dms, user))
          else
            var key := IndexKey(res.paired.value.workspace, res.paired.value.channel, res.name);
            if !Hit(dir.uids, key) then DmOutcome(NoMatch(res.name, res.channel), res.lines, Clear(dms, user))
            else
              var target := dir.uids[key];
              DmOutcome(Selected(target), res.lines,
                        SelectUser(dms, user, res.channel, res.paired.value.workspace, target, Some(slash)))
  }

  /** Every refused `dm` leaves the caller unpaired, except a refusal for
      want of any channel (which touches nothing); a successful one pairs
      the caller with the resolved user. */
  lemma DmCommandPairing(dms: Sessions, lines: Lines, env: Environment, dir: Directory,
                         user: string, team: string, inferred: string, args: string, slash: string)
    ensures var r := DmCommand(dms, lines, env, dir, user, team, inferred, args, slash);
      && (r.reply.Selected? ==> Targets(r.dms, user, r.reply.target))
      && (!r.reply.Selected? && !r.reply.NoChannel? && !r.reply.Crashed? ==> user in r.dms && r.dms[user].uid == None)
  {
  }

  // ---------------------------------------------------------------------------
  // channel leave

  /** The leaver's own session, created if need be, unpaired when it was
      opened from the channel being left. */
  function ClearOwn(dms: Sessions, leaver: string, channel: string): (r: Sessions)
    ensures r.Keys == dms.Keys + {leaver}
    ensures forall u :: u in dms && u != leaver ==> r[u] == dms[u]
    ensures leaver in dms && dms[leaver].inChannel == Some(channel) ==> r[leaver] == dms[leaver].(uid := None)
    ensures leaver in dms && dms[leaver].inChannel != Some(channel) ==> r[leaver] == dms[leaver]
    ensures leaver !in dms ==> r[leaver] == Blank
  {
    var (d, own) := Dm(dms, leaver);
    if own.inChannel == Some(channel) then d[leaver := own.(uid := None)] else d
  }

  datatype Leave = Leave(dir: Directory, dms: Sessions, lines: Lines, crashed: bool)

  /** Some session points at `target`. */
  predicate Targeted(dms: Sessions, target: string) {
    exists d :: d in dms && Targets(dms, d, target)
  }

  /** The loop of `handle_leave` over the sessions pointing at the leaver:
      each is unpaired in turn; the pairing `line` (the memo and answer of
      `cache.line`) is consulted on the first, and when it is missing the
      loop stops with a throw after that first session. */
  method UnpairDmers(dms: Sessions, leaver: string, lines: Lines, line: (Lines, Option<Pair>))
    returns (r: Sessions, memo: Lines, crashed: bool)
    ensures r.Keys == dms.Keys
    ensures forall d :: d in dms && !Targets(dms, d, leaver) ==> r[d] == dms[d]
    ensures crashed <==> Targeted(dms, leaver) && line.1.None?
    ensures memo == (if Targeted(dms, leaver) then line.0 else lines)
    ensures !crashed ==> forall d :: d in dms && Targets(dms, d, leaver) ==> r[d] == dms[d].(uid := None)
    ensures !crashed ==> forall d :: !Targets(r, d, leaver)
    ensures crashed ==> exists d :: Targets(dms, d, leaver) && r == dms[d := dms[d].(uid := None)]
  {
    var dmers := Dmers(dms, leaver);
    r := dms;
    memo := lines;
    var i := 0;
    while i < |dmers|
      invariant 0 <= i <= |dmers|
      invariant r.Keys == dms.Keys
      invariant forall d :: d in dms && d !in dmers[..i] ==> r[d] == dms[d]
      invariant forall d :: d in dmers[..i] ==> d in dms && r[d] == dms[d].(uid := None)
      invariant memo == (if i > 0 then line.0 else lines)
      invariant i > 0 ==> line.1.Some?
    {
      var d := dmers[i];
      assert d in dmers;
      assert dmers[..i + 1] == dmers[..i] + [d];
      memo := line.0;
      r := r[d := r[d].(uid := None)];
      if line.1.None? {
        assert r == dms[d := dms[d].(uid := None)];
        return r, memo, true;
      }
      i := i + 1;
    }
    assert dmers[..i] == dmers;
    if Targeted(dms, leaver) {
      var d :| Targets(dms, d, leaver);
      assert d in dmers;
    }
    if |dmers| > 0 {
      assert Targets(dms, dmers[0], leaver);
    }
    crashed := false;
  }

  /** `handle_leave`, for a leave whose workspace and channel names have
      already been resolved: the leaver is forgotten in the channel's
      reverse index; their own session is unpaired if it was opened from
      that channel; then every session pointing at the leaver is unpaired.
      The bridge pairing is looked up on the first such session, and when
      the channel is not bridged reading its workspace throws right after
      that first session was unpaired. */
  method HandleLeave(dir: Directory, dms: Sessions, lines: Lines, env: Environment,
                     leaver: string, channel: string, workspace: string, fetched: Option<Profile>)
    returns (r: Leave)
    ensures Unuser(dir, leaver, channel, workspace, fetched).None? ==> r == Leave(dir, dms, lines, true)
    ensures Unuser(dir, leaver, channel, workspace, fetched).Some? ==>
      var own := ClearOwn(dms, leaver, channel);
      var line := Line(lines, env, workspace, channel);
      && r.dir == Unuser(dir, leaver, channel, workspace, fetched).value
      && r.dms.Keys == own.Keys
      && (forall d :: d in own && !Targets(own, d, leaver) ==> r.dms[d] == own[d])
      && (r.crashed <==> Targeted(own, leaver) && line.1.None?)
      && r.lines == (if Targeted(own, leaver) then line.0 else lines)
      && (!r.crashed ==> forall d :: !Targets(r.dms, d, leaver))
      && (r.crashed ==> exists d :: Targets(own, d, leaver) && r.dms == own[d := own[d].(uid := None)])
  {
    var forgotten := Unuser(dir, leaver, channel, workspace, fetched);
    if forgotten.None? {
      return Leave(dir, dms, lines, true);
    }
    var own := ClearOwn(dms, leaver, channel);
    var sessions, memo, crashed := UnpairDmers(own, leaver, lines, Line(lines, env, workspace, channel));
    return Leave(forgotten.value, sessions, memo, crashed);
  }
}

=== FILE: text.dfy ===
/** String helpers standing in for the JavaScript string methods the bridge
    calls: `startsWith`, `split` on one character, the greedy `/.*#/` strip,
    `indexOf`, and the default (code-unit lexicographic) `sort`. */
module Text {

  predicate StartsWith(s: string, prefix: string) {
    |prefix| <= |s| && s[..|prefix|] == prefix
  }

  /** Position of the first `c` in `s`. */
  function IndexOf(s: string, c: char): (i: nat)
    requires c in s
    ensures i < |s| && s[i] == c
    ensures c !in s[..i]
  {
    if s[0] == c then 0 else 1 + IndexOf(s[1..], c)
  }

  /** The first occurrence of `c` is found right after a `c`-free prefix. */
  lemma IndexOfAfter(a: string, c: char, b: string)
    requires c !in a
    ensures IndexOf(a + [c] + b, c) == |a|
  {
    var s := a + [c] + b;
    assert s[|a|] == c;
    assert forall k :: 0 <= k < |a| ==> s[k] == a[k];
  }

  // ---------------------------------------------------------------------------
  // split / join on a single separator character

  /** `s.split(c)` for a one-character separator: the pieces between the
      separators, always at least one. */
  function Split(s: string, c: char): (parts: seq<string>)
    ensures |parts| >= 1
    ensures forall i :: 0 <= i < |parts| ==> c !in parts[i]
  {
    if |s| == 0 then [""]
    else
      var rest := Split(s[1..], c);
      if s[0] == c then [""] + rest
      else [[s[0]] + rest[0]] + rest[1..]
  }

  /** The inverse of `Split`: the pieces glued back with the separator. */
  function Join(parts: seq<string>, c: char): string
    requires |parts| >= 1
  {
    if |parts| == 1 then parts[0] else parts[0] + [c] + Join(parts[1..], c)
  }

  lemma {:induction false} JoinSplit(s: string, c: char)
    ensures Join(Split(s, c), c) == s
  {
    if |s| > 0 {
      JoinSplit(s[1..], c);
      var rest := Split(s[1..], c);
      if s[0] == c {
        assert Split(s, c) == [""] + rest;
        assert ([""] + rest)[1..] == rest;
        assert s == [c] + s[1..];
      } else if |rest| == 1 {
        assert s == [s[0]] + s[1..];
      } else {
        var parts := Split(s, c);
        assert parts[1..] == rest[1..];
        assert Join(rest, c) == rest[0] + [c] + Join(rest[1..], c);
        assert s == [s[0]] + s[1..];
      }
    }
  }

  /** A separator-free head is split off as one piece. */
  lemma {:induction false} SplitAppend(a: string, c: char, t: string)
    requires c !in a
    ensures Split(a + [c] + t, c) == [a] + Split(t, c)
    ensures Split(a, c) == [a]
  {
    if |a| > 0 {
      SplitAppend(a[1..], c, t);
      assert (a + [c] + t)[1..] == a[1..] + [c] + t;
      assert [a[0]] + a[1..] == a;
    } else {
      assert a + [c] + t == [c] + t;
      assert ([c] + t)[1..] == t;
    }
  }

  lemma {:induction false} SplitJoin(parts: seq<string>, c: char)
    requires |parts| >= 1
    requires forall i :: 0 <= i < |parts| ==> c !in parts[i]
    ensures Split(Join(parts, c), c) == parts
  {
    if |parts| == 1 {
      SplitAppend(parts[0], c, "");
    } else {
      SplitJoin(parts[1..], c);
      SplitAppend(parts[0], c, Join(parts[1..], c));
      assert [parts[0]] + parts[1..] == parts;
    }
  }

  /** `s.split(c)` has exactly two pieces precisely when `s` is two
      separator-free words around a single separator, and then those are
      the pieces. */
  lemma SplitTwo(s: string, c: char, a: string, b: string)
    ensures (c !in a && c !in b && s == a + [c] + b) <==> Split(s, c) == [a, b]
  {
    if Split(s, c) == [a, b] {
      JoinSplit(s, c);
      assert Join([a, b], c) == a + [c] + Join([b], c);
    }
    if c !in a && c !in b && s == a + [c] + b {
      SplitJoin([a, b], c);
      assert Join([a, b], c) == a + [c] + Join([b], c);
    }
  }

  // ---------------------------------------------------------------------------
  // the greedy `s.replace(/.*#/, '')` strip

  /** What remains of `s` after deleting everything up to and including its
      last `c`; all of `s` when it holds no `c`. */
  function AfterLast(s: string, c: char): (r: string)
    ensures c !in r
    ensures |r| <= |s| && s[|s| - |r|..] == r
    ensures |r| < |s| ==> s[|s| - |r| - 1] == c
  {
    if |s| == 0 then ""
    else if s[|s| - 1] == c then ""
    else AfterLast(s[..|s| - 1], c) + [s[|s| - 1]]
  }

  // ---------------------------------------------------------------------------
  // the default sort order of JavaScript: lexicographic on UTF-16 code
  // units, a prefix first

  /** The UTF-16 code units of one character: itself below U+10000, and a
      high and a low surrogate above. */
  function CodeUnits(c: char): (r: seq<int>)
    ensures 1 <= |r| <= 2
    ensures (c as int) < 0x1_0000 <==> r == [c as int]
    ensures (c as int) >= 0x1_0000 ==>
      && |r| == 2 && 0xD800 <= r[0] < 0xDC00 && 0xDC00 <= r[1] < 0xE000
      && 0x1_0000 + (r[0] - 0xD800) * 0x400 + (r[1] - 0xDC00) == c as int
  {
    if (c as int) < 0x1_0000 then [c as int]
    else [0xD800 + (c as int - 0x1_0000) / 0x400, 0xDC00 + (c as int - 0x1_0000) % 0x400]
  }

  /** A string as JavaScript stores it. */
  function Utf16(s: string): (r: seq<int>)
    ensures |s| <= |r| <= 2 * |s|
  {
    if |s| == 0 then [] else CodeUnits(s[0]) + Utf16(s[1..])
  }

  predicate UnitsLessEq(a: seq<int>, b: seq<int>) {
    if |a| == 0 then true
    else if |b| == 0 then false
    else if a[0] != b[0] then a[0] < b[0]
    else UnitsLessEq(a[1..], b[1..])
  }

  lemma {:induction false} UnitsLessEqTotal(a: seq<int>, b: seq<int>)
    ensures UnitsLessEq(a, b) || UnitsLessEq(b, a)
  {
    if |a| > 0 && |b| > 0 && a[0] == b[0] {
      UnitsLessEqTotal(a[1..], b[1..]);
    }
  }

  lemma {:induction false} UnitsLessEqTrans(a: seq<int>, b: seq<int>, d: seq<int>)
    requires UnitsLessEq(a, b) && UnitsLessEq(b, d)
    ensures UnitsLessEq(a, d)
  {
    if |a| > 0 && |b| > 0 && |d| > 0 && a[0] == b[0] && b[0] == d[0] {
      UnitsLessEqTrans(a[1..], b[1..], d[1..]);
    }
  }

  /** `a` sorts no later than `b` under the default comparison of
      `Array.prototype.sort`. */
  predicate LessEq(a: string, b: string) {
    UnitsLessEq(Utf16(a), Utf16(b))
  }

  lemma LessEqTotal(a: string, b: string)
    ensures LessEq(a, b) || LessEq(b, a)
  {
    UnitsLessEqTotal(Utf16(a), Utf16(b));
  }

  lemma LessEqTrans(a: string, b: string, d: string)
    requires LessEq(a, b) && LessEq(b, d)
    ensures LessEq(a, d)
  {
    UnitsLessEqTrans(Utf16(a), Utf16(b), Utf16(d));
  }

  /** Code-unit order is not character order: a character above U+FFFF is
      stored from a surrogate, so it sorts before U+FFFF. */
  lemma SurrogatesSortEarly()
    ensures '\U{FFFF}' < '\U{10000}'
    ensures LessEq("\U{10000}", "\U{FFFF}") && !LessEq("\U{FFFF}", "\U{10000}")
  {
    assert Utf16("\U{10000}") == [0xD800, 0xDC00] by {
      assert "\U{10000}"[1..] == "";
    }
    assert Utf16("\U{FFFF}") == [0xFFFF] by {
      assert "\U{FFFF}"[1..] == "";
    }
  }

  predicate Sorted(s: seq<string>) {
    forall i, j :: 0 <= i < j < |s| ==> LessEq(s[i], s[j])
  }

  /** A value no later than the head of a sorted list is no later than any
      of its elements. */
  lemma BeforeAll(x: string, s: seq<string>)
    requires Sorted(s) && |s| > 0 && LessEq(x, s[0])
    ensures forall j :: 0 <= j < |s| ==> LessEq(x, s[j])
  {
    forall j | 0 < j < |s|
      ensures LessEq(x, s[j])
    {
      LessEqTrans(x, s[0], s[j]);
    }
  }

  /** The head of a sorted list is no later than anything the rest of the
      list holds, nor than a value that sorts after it. */
  lemma HeadBeforeAll(x: string, s: seq<string>, tail: seq<string>)
    requires Sorted(s) && |s| > 0 && !LessEq(x, s[0])
    requires multiset(tail) == multiset(s[1..]) + multiset{x}
    ensures forall j :: 0 <= j < |tail| ==> LessEq(s[0], tail[j])
  {
    LessEqTotal(x, s[0]);
    forall j | 0 <= j < |tail|
      ensures LessEq(s[0], tail[j])
    {
      assert tail[j] in multiset(tail);
      if tail[j] != x {
        assert tail[j] in multiset(s[1..]);
        var k :| 0 <= k < |s[1..]| && s[1..][k] == tail[j];
        assert s[k + 1] == tail[j];
      }
    }
  }

  /** One insertion-sort step: `x` placed into an already sorted list. */
  function Insert(x: string, s: seq<string>): (r: seq<string>)
    requires Sorted(s)
    ensures Sorted(r)
    ensures multiset(r) == multiset(s) + multiset{x}
  {
    if |s| == 0 then [x]
    else if LessEq(x, s[0]) then
      BeforeAll(x, s);
      assert s == [s[0]] + s[1..];
      [x] + s
    else
      var tail := Insert(x, s[1..]);
      assert s == [s[0]] + s[1..];
      HeadBeforeAll(x, s, tail);
      [s[0]] + tail
  }
}

=== FILE: topology.dfy ===
/** The bridge topology of index.js: which (workspace, channel) a local
    (workspace, channel) is mirrored to. The pairing comes from the process
    environment, a variable named after the escaped workspace and channel
    whose value is `workspace#channel`; successful answers are memoised. */
module Topology {
  import opened Values
  import opened Text

  /** The text that stands for a hyphen inside an environment variable name. */
  const HyphenWord: string := "__hyphen__"

  /** Every `-` replaced by `__hyphen__`, other characters kept. */
  function Escaped(name: string): (r: string)
    ensures '-' !in r
  {
    if |name| == 0 then ""
    else (if name[0] == '-' then HyphenWord else [name[0]]) + Escaped(name[1..])
  }

  /** Escaping works character by character, so it distributes over
      concatenation. */
  lemma {:induction false} EscapedAppend(a: string, b: string)
    ensures Escaped(a + b) == Escaped(a) + Escaped(b)
  {
    if |a| > 0 {
      assert (a + b)[1..] == a[1..] + b;
      EscapedAppend(a[1..], b);
    } else {
      assert a + b == b;
    }
  }

  /** A name without hyphens is left as it is. */
  lemma {:induction false} EscapedPlain(name: string)
    requires '-' !in name
    ensures Escaped(name) == name
  {
    if |name| > 0 {
      EscapedPlain(name[1..]);
      assert [name[0]] + name[1..] == name;
    }
  }

  /** A single hyphen becomes the replacement word; together with the two
      lemmas above this pins `Escaped` down on every string. */
  lemma EscapedHyphen()
    ensures Escaped("-") == HyphenWord
  {
    assert "-"[1..] == "";
  }

  /** The name of the environment variable holding the pairing. */
  function LineVar(workspace: string, channel: string): string {
    "LINE_" + Escaped(workspace) + "_" + Escaped(channel)
  }

  /** Escaping leaves an `_` between two names in place. */
  lemma EscapedUnderscore(x: string, y: string)
    ensures Escaped(x + "_" + y) == Escaped(x) + "_" + Escaped(y)
  {
    assert Escaped("_") == "_" by {
      assert "_"[1..] == "";
    }
    EscapedAppend(x, "_");
    EscapedAppend(x + "_", y);
  }

  /** Two different (workspace, channel) pairs read the same variable
      whenever the workspace of one ends, and the channel of the other
      begins, with the same `_`-joined piece, since `_` is both a legal
      name character and the separator. */
  lemma LineVarShared(workspace: string, piece: string, channel: string)
    ensures LineVar(workspace + "_" + piece, channel) == LineVar(workspace, piece + "_" + channel)
  {
    EscapedUnderscore(workspace, piece);
    EscapedUnderscore(piece, channel);
    RegroupUnderscores(Escaped(workspace), Escaped(piece), Escaped(channel));
  }

  /** Moving the middle piece from one side of the separator to the other
      leaves the variable's text unchanged. */
  lemma RegroupUnderscores(w: string, p: string, c: string)
    ensures "LINE_" + (w + "_" + p) + "_" + c == "LINE_" + w + "_" + (p + "_" + c)
  {
  }

  /** The remote end of a bridge. */
  datatype Pair = Pair(workspace: string, channel: string)

  type Lines = map<string, Pair>
  type Environment = map<string, string>

  /** The memo key: workspace and channel joined by `#`. */
  function LineKey(workspace: string, channel: string): string {
    workspace + "#" + channel
  }

  /** `cache.line`: the memoised pairing if there is one; otherwise the
      environment variable, which must be present, non-empty, and split
      into exactly two pieces on `#`. Only a successful answer is
      memoised. The `quiet` flag only silences a log line and is not
      modelled. */
  function Line(lines: Lines, env: Environment, workspace: string, channel: string): (r: (Lines, Option<Pair>))
    ensures LineKey(workspace, channel) in lines ==> r == (lines, Some(lines[LineKey(workspace, channel)]))
    ensures r.1.None? ==> r.0 == lines
    ensures r.1.Some? ==> r.0 == lines[LineKey(workspace, channel) := r.1.value]
    ensures LineKey(workspace, channel) !in lines && r.1.Some? ==>
      && LineVar(workspace, channel) in env
      && env[LineVar(workspace, channel)] == r.1.value.workspace + "#" + r.1.value.channel
      && '#' !in r.1.value.workspace && '#' !in r.1.value.channel
    ensures (&& LineKey(workspace, channel) !in lines
             && (LineVar(workspace, channel) !in env || env[LineVar(workspace, channel)] == ""))
      ==> r.1.None?
  {
    var id := LineKey(workspace, channel);
    if id in lines then (lines, Some(lines[id]))
    else
      var name := LineVar(workspace, channel);
      if name !in env || env[name] == "" then (lines, None)
      else
        var parts := Split(env[name], '#');
        if |parts| != 2 then (lines, None)
        else
          JoinSplit(env[name], '#');
          assert Join(parts, '#') == parts[0] + "#" + Join(parts[1..], '#');
          var pair := Pair(parts[0], parts[1]);
          (lines[id := pair], Some(pair))
  }

  /** The converse: a fresh lookup whose variable holds exactly one `#`
      yields the two pieces around it. */
  lemma LineAccepts(lines: Lines, env: Environment, workspace: string, channel: string, a: string, b: string)
    requires LineKey(workspace, channel) !in lines
    requires LineVar(workspace, channel) in env
    requires env[LineVar(workspace, channel)] == a + "#" + b
    requires '#' !in a && '#' !in b
    ensures Line(lines, env, workspace, channel).1 == Some(Pair(a, b))
  {
    SplitTwo(a + "#" + b, '#', a, b);
  }

  /** Once answered, the same pairing comes back on every later call, the
      memo does not change again, and the environment is no longer read. */
  lemma LineStable(lines: Lines, env: Environment, later: Environment, workspace: string, channel: string)
    requires Line(lines, env, workspace, channel).1.Some?
    ensures var (memo, first) := Line(lines, env, workspace, channel);
      Line(memo, later, workspace, channel) == (memo, first)
  {
  }
}

=== FILE: values.dfy ===
/** JavaScript value conventions the bridge relies on. */
module Values {

  /** A value that may be missing. */
  datatype Option<+T> = None | Some(value: T)

  /** The three outcomes a memoising lookup can hand back: `null` when the
      remote lookup failed, `undefined` when nothing is memoised and the
      caller asked not to memoise, or the memoised value itself. */
  datatype Answer<+T> = Null | Undefined | Value(value: T)
}
